=== FILE: README.md ===
# zlog core in Dafny

This project models the core of the Go logging package zlog (ssor/zlog) and proves properties of the model. The package is a logrus-style logger with four parts:

- **Severity gating and entries** (`logger.go`).
  - A `Logger` has an output, a text formatter, a level threshold and a module name.
  - The `Debug`/`Info`/`Warn`/`Warning`/`Error`/`Fatal`/`Panic` method families emit (in plain, `f` and `ln` forms, except that `Warning` has only `Warningf` and `Warningln`) a record only when the threshold admits their level.
  - `Print*`, `Pass*`, `Success*`, `Failed*` and `Highlight*` always emit, whatever the threshold.
  - `Print*` emits at the logger's own level and `Highlight*` at Error, both with the message as given. `Pass*` and `Success*` emit at Info with the prefixes "[PASS]" and "[OK]", and `Failed*` at Error with "[FAIL]".
  - `WithMultiLines` and `WithLongString` split a text into numbered `key-i` fields.
  - Two parsers map a log-line prefix to a level: `PrefixStrCmp` and `RegexpParser`.
- **The text formatter** (`text_formatter.go`): the record layout, key ordering, colour decision, field truncation, quoting, level colours and tags, and the caller's short file name.
- **The trace aggregator** (`tracer.go`).
  - A registry of integer-indexed chains, each a FIFO of blocks plus a colour.
  - A palette of four colours with used/unused flags.
  - `TraceEnd` replays a chain's blocks without clearing them.
- **Package-level helpers** (`exported.go`): the lazily created standard logger, `SetOutput` fan-out over every logger, `SetLevel`/`GetLevel`, `AddFields`, and the package-level `With*` builders.

Modelling choices:

- Strings are `seq<char>` with one character per byte.
- Values that Go stringifies with `fmt` arrive already rendered as strings.
- Go map iteration order is an explicit `order` argument that enumerates the map's keys. Results that must not depend on it are proved not to.
- Global mutable state is passed in and returned:
  - `Logging.World` holds the logger arena, the registry `loggers` and the standard logger `std`.
  - `Tracer.TraceState` holds `chains` and `colors`.
- A run-time panic (a slice out of range, a failed type assertion, `panic(err)`) is the `Err` case of a `Result`.

Modules:

- `Wrappers`: `Option` and `Result`.
- `Levels`: levels, their order and parsing.
- `Strings` and `Sorting`: splitting, joining, decimal rendering, padding, truncation, sorting.
- `TextFormat`: the formatter.
- `Logging`: `logger.go`.
- `Exported`: `exported.go`.
- `Tracer`: `tracer.go`.

## Model

| member | source | states |
|---|---|---|
| Levels.EnabledIsTotalOrder | logger.go:224-239 | The `logger.Level >= XLevel` guard is a total order on the six levels, with Panic the least and Debug the most verbose. |
| Levels.ParseLevel | logrus_test.go:129-188 | A text parses iff its lower-cased form is one of the level names or "warn". The level it yields is the one so named. Any other text is a "not a level" error carrying the text. |
| Levels.ParseLevelIgnoresCase | logrus_test.go:129-185 | Upper-casing or lower-casing a text changes neither whether it parses nor the level it yields. |
| Levels.NameRoundTrip | logrus_test.go:120-185 | Every level's name, and its upper-case form, parses back to that level. |
| Strings.Split | logger.go:132 | With an empty separator the text splits into its single characters. With a non-empty one the result is `SplitOn`'s: at least one segment, none containing the separator, cut at leftmost occurrences. |
| Strings.SplitOn | logger.go:146 | Splitting on a non-empty separator gives at least one segment, and no segment contains the separator. A text without the separator is one segment. Otherwise there are at least two segments, and the first is the text before the leftmost occurrence. |
| Strings.SplitOnLeftmost | logger.go:146 | Splitting cuts at the leftmost occurrence of the separator and then splits the text after it. With `SplitOn` and `JoinSplit` this fixes every segment, as Go's leftmost, non-overlapping matching does. |
| Strings.JoinSplit | logger.go:146 | Joining the segments of a split with the separator gives back the original text. |
| Strings.SplitJoin | logger.go:81 | Module names without '/', joined with "/", split back into the same names. |
| Strings.DecimalInjective | logger.go:137 | Different indices have different decimal renderings, so numbered field keys never collide. |
| Strings.PadRight | tracer.go:140 | `%-44s` padding (and the `%-3d` of text_formatter.go line 132) keeps the text as a prefix, adds only spaces, and reaches the width unless the text is already longer. |
| Strings.Truncate | text_formatter.go:100-103 | A value of at most 128 bytes is unchanged. A longer one becomes its first 128 bytes followed by "...", which is 131 bytes. |
| Strings.TruncateIdempotent | text_formatter.go:156-159 | A truncated value is at most 131 bytes, and truncating it again changes nothing. |
| Sorting.Sort | text_formatter.go:67-69 | `sort.Strings` yields an ascending permutation of its input. |
| Sorting.SortIgnoresOrder | text_formatter.go:62-69 | Any two iteration orders of the same key set sort to the same list. |
| TextFormat.KeyList | text_formatter.go:62-69 | The key list enumerates exactly the field keys, once each. It is sorted unless sorting is disabled, and otherwise it is the map's iteration order. |
| TextFormat.IsColored | text_formatter.go:78-79 | Disabling colours always wins. Otherwise forcing colours wins, and otherwise a record is coloured iff it goes to a terminal that is not on Windows. |
| TextFormat.TimestampLayout | text_formatter.go:81-84 | An empty timestamp format falls back to the default layout, and a non-empty one is used as given. |
| TextFormat.NeedsQuoting | text_formatter.go:169-179 | True iff some character lies outside `[a-zA-Z0-9.-]`, so it is false for the empty text. |
| TextFormat.AppendKeyValue | text_formatter.go:181-206 | Writes `key=` only for a non-empty key. A string or error value is quoted iff it needs quoting, and any other value is written as rendered. The output always ends in one space. |
| TextFormat.KeyValueRoundTrip | text_formatter.go:181-206 | A pair that needs no quoting is written as `key=value `, and reading the token back up to the first '=' recovers the key and the value. |
| TextFormat.LevelColor | text_formatter.go:136-146 | Error, Fatal and Panic are red (31), Warn is yellow (33), Info is blue (34) and Debug is gray (37). |
| TextFormat.LevelTag | text_formatter.go:148 | The first four characters of the upper-cased name are "PANI", "FATA", "ERRO", "WARN", "INFO" or "DEBU", and no other level has the same tag. |
| TextFormat.LevelTags | text_formatter.go:148 | Different levels have different tags. |
| TextFormat.ShortFile | text_formatter.go:125-131 | The result is the suffix after the last '/' found at an index above 0. A '/' only at index 0, or none at all, gives "". The result never contains '/'. |
| TextFormat.FormatShortFile | text_formatter.go:117-133 | An unknown caller gives "???:0". A known caller gives the suffix after the last '/' at an index above 0, then ':' and the line number padded to three columns. That suffix is "" when there is no such '/'. |
| TextFormat.Head | text_formatter.go:87-97 | The parts before the field lines. A plain record has, in order: `time=` (absent iff timestamps are disabled), the keyless file info, `level=` with the level's name, and `msg=` (only for a non-empty message). A coloured record has one header instead, carrying the level's colour and tag, the file info and the message. The header's timestamp is the elapsed seconds, or the time in the layout in effect under full timestamps (lines 150-154). |
| TextFormat.Format | text_formatter.go:60-115 | A record is its head, then exactly the field lines of the key list in order (one per field), then `Json(payload)` iff a payload is attached, then a final `Newline`. |
| TextFormat.AssembleSlices | text_formatter.go:87-114 | An assembled record is `Laid` out: the head comes first, the field lines occupy the next positions, the JSON part (when present) is second to last and the `Newline` is last. |
| TextFormat.FormatLayout | text_formatter.go:87-114 | A record starts with its head. Its final part is a `Newline`, and no other part is one. |
| TextFormat.FormatFieldLines | text_formatter.go:98-105 | The record's field lines carry exactly the key list, in order, each with its field's truncated value. |
| TextFormat.FormatIgnoresMapOrder | text_formatter.go:62-69 | With sorting enabled, the rendered record does not depend on the map's iteration order. |
| Logging.Dispatch | logger.go:224-452 | A call emits iff its family is ungated or the threshold admits its level. A gated call emits one record at its own level. Print emits at the logger's current level. Pass and Success emit at Info with "[PASS]"/"[OK]", Failed emits at Error with "[FAIL]", and Highlight emits at Error with call depth 6. |
| Logging.GatingMonotone | logger.go:224-452 | A more verbose threshold emits everything a quieter one does, and the same record unless the call is a Print. |
| Logging.ThresholdExtremes | logger.go:224-452 | Threshold Debug emits every call. Threshold Panic emits only the ungated families and the Panic family. |
| Logging.New | logger.go:72-85 | A new logger writes to stderr at level Debug with the default formatter. With no names its module is "main", and otherwise the names joined with "/". It is appended to the arena and to the registry, and nothing else changes. |
| Logging.ModuleNameSplits | logger.go:72-81 | The module name of a logger built from '/'-free names splits on "/" back into those names. |
| Logging.SetOutput | logger.go:92-96 | Only the addressed logger's output changes. |
| Logging.SetLevel | logger.go:98-100 | Only the addressed logger's level changes. |
| Logging.SetLevelGates | logger.go:98-100 | After `SetLevel(l)`, a gated call at level g emits iff g is no more verbose than l. |
| Logging.NewEntry | logger.go:102-108 | A fresh entry has the logger's module name, no fields and no JSON. |
| Logging.WithField | logger.go:159-163 | The entry holds exactly the one field. |
| Logging.WithFields | logger.go:167-171 | The entry holds exactly the given fields. |
| Logging.WithError | logger.go:175-179 | The entry holds exactly the field "error" with the error's text. |
| Logging.WithJsonRaw | logger.go:122-126 | The entry holds no fields and the given JSON. |
| Logging.WithStruct | logger.go:114-120 | An encoded value becomes the entry's JSON. A marshalling error becomes an "error" field, as `WithError` gives. |
| Logging.FieldKeyInjective | logger.go:137 | `key-i` and `key-j` are equal only when i equals j. |
| Logging.NumberedHas | logger.go:133-138 | Every non-empty segment i gives the field `key-i` holding that segment. |
| Logging.NumberedOnly | logger.go:133-138 | Every field comes from a non-empty segment at its own index. |
| Logging.NumberedSize | logger.go:133-138 | There are exactly as many fields as non-empty segments, so no two keys collide. |
| Logging.IndexedFields | logger.go:131-138 | The loop builds the field `key-i` for exactly the non-empty segments. Empty segments give no field but still use up their index. |
| Logging.WithLongString | logger.go:142-154 | The entry's fields are exactly the numbered non-empty segments of the split. For a non-empty separator no value contains the separator. |
| Logging.WithMultiLines | logger.go:128-140 | Like `WithLongString` with separator "\n". No value contains a newline. |
| Logging.PrefixParse | logger.go:201-222 | Text shorter than 7 bytes panics on the slice. Each of the six 7-byte tags maps to its level, and any other prefix gives Debug with no error. |
| Logging.WordRun | logger.go:191 | The run of `\w` characters starting at a position is maximal. |
| Logging.RegexpParse | logger.go:189-197 | No leading `[\w+]` match means the empty match is sliced and panics. A match parses its bracketed word case-insensitively. |
| Logging.RegexpParseBracketed | logger.go:191-196 | A text starting with "[word]", for a non-empty word of `\w` characters, parses as the word does. |
| Logging.ParsersAgree | logger.go:194-221 | On each of the six tags both parsers yield the tag's level. |
| Exported.StandardLogger | exported.go:18-24 | An existing standard logger is returned with nothing changed. Otherwise a new "main" logger is created, and its id is appended to the registry twice. |
| Exported.StandardLoggerIdempotent | exported.go:18-24 | A second call returns the same logger and the same world. |
| Exported.StandardLoggerRegisteredTwice | exported.go:18-24 | On first creation the standard logger occurs exactly twice in the registry. |
| Exported.FanOut | exported.go:27-31 | Every listed logger gets the new output, and every other logger is unchanged. |
| Exported.SetOutput | exported.go:27-31 | Every registered logger writes to the new output and is otherwise unchanged. Unregistered loggers, the registry and the standard logger are unchanged. |
| Exported.FanOutBySet | exported.go:27-31 | The outcome depends only on the set of registered loggers, so duplicate registry entries change nothing, and applying it twice is applying it once. |
| Exported.SetLevel | exported.go:42-45 | The standard logger exists afterwards and has the given level. Only its level changes: the registry and every other logger are as `StandardLogger` left them. |
| Exported.GetLevel | exported.go:48-51 | Returns the standard logger's level, which is Debug if it was only now created. |
| Exported.GetAfterSet | exported.go:42-51 | `GetLevel` right after `SetLevel(l)` returns l and changes nothing. |
| Exported.WithField | exported.go:68-71 | The entry carries the standard logger's module name, exactly the one field and no JSON. |
| Exported.WithFields | exported.go:116-120 | The entry carries the standard logger's module name, exactly the given fields and no JSON. |
| Exported.WithError | exported.go:53-57 | The entry carries the standard logger's module name, exactly the field "error" with the error's text, and no JSON. |
| Exported.WithJsonRaw | exported.go:122-126 | The entry carries the standard logger's module name, no fields and the given JSON. |
| Exported.WithStruct | exported.go:102-108 | The entry carries the standard logger's module name. An encoded value gives an entry with no fields and that JSON, and a marshalling error gives an entry with only the "error" field and no JSON. |
| Exported.WithStructAgrees | exported.go:102-108 | The package-level `WithStruct` builds the same entry as the standard logger's own `WithStruct`. |
| Exported.PairedKeys | exported.go:137-140 | The keys paired so far are exactly the strings at even positions so far. |
| Exported.PairedLast | exported.go:137-140 | A key is paired with the value after its last occurrence so far. |
| Exported.PairUp | exported.go:133-140 | The list is padded with "" to even length. The first non-string at an even position is a failed type assertion. Otherwise every even-position string maps to its successor, and a later duplicate overwrites an earlier one. |
| Exported.AddFields | exported.go:128-142 | A successful call gives an entry with the standard logger's module name and no JSON. No arguments give an entry without fields. Otherwise the entry's keys are exactly the even-position strings, each with the value after its last occurrence. It fails iff an even position holds a non-string. |
| Exported.LastSegmentEntry | exported.go:92-99 | Each non-empty segment replaces the entry built so far. The loop ends with nil iff every segment is empty, and otherwise with the single-field entry of the last non-empty segment. |
| Exported.WithLongString | exported.go:87-100 | Gives nil iff every segment is empty. Otherwise it gives the single-field entry for the last non-empty segment only. |
| Exported.WithMultiLines | exported.go:73-85 | The same, splitting on "\n". |
| Exported.Log | exported.go:145-352 | Every package-level logging function acts on the standard logger, creating it if needed. It emits iff that logger's threshold admits the call, and a gated call emits at its own level. Print emits at the standard logger's level. Pass and Success emit at Info with "[PASS]"/"[OK]" before the message, and Failed at Error with "[FAIL]". Every call other than Highlight gives exactly the standard logger's own record, and Highlight emits at Error with the package's call depth 6. |
| Exported.LogAfterSetLevel | exported.go:42-45 | A fresh standard logger emits every call. After `SetLevel(l)`, a gated call at level g emits iff g is no more verbose than l. |
| Tracer.Claim | tracer.go:73-82 | Every colour visited becomes used. The chain keeps the last unused colour visited, or its initial colour if none was unused. |
| Tracer.GenerateNewChain | tracer.go:73-82 | Afterwards every palette colour is used. The new chain is empty and gets an unused colour if there was one, and no colour (0) otherwise. |
| Tracer.Trace | tracer.go:62-71 | Creates chain i if it is absent, then appends one block carrying the chain's colour, fields, object and arguments. Other chains are unchanged, and the palette is untouched when the chain already existed. |
| Tracer.TraceDefault | tracer.go:38-48 | Creates chain 0 if it is absent, then appends one block carrying the chain's colour. Other chains are unchanged, and the palette is untouched when chain 0 already existed. |
| Tracer.TraceDefaultIsTrace | tracer.go:38-48 | `TraceDefault` has the same effect as `Trace` on index 0. |
| Tracer.TraceEnd | tracer.go:94-102 | Replays chain i's blocks in insertion order, and nothing for an absent chain. The registry is left unchanged, so a second call replays the same blocks. |
| Tracer.TraceEndDefault | tracer.go:84-92 | Behaves as `TraceEnd(0)`. |
| Tracer.InitGood | tracer.go:16-24 | The initial state, with the palette {31, 32, 33, 34} all unused and no chains, satisfies the three facts `Trace` keeps. |
| Tracer.TracePreservesGood | tracer.go:62-82 | `Trace` keeps three facts. Every block carries its chain's colour. The palette is the four colours, all unused while no chain exists and all used once one does. At most one chain holds a palette colour, and every other chain has none (0). |
| Tracer.ChainColors | tracer.go:73-82 | The first chain gets a palette colour, and every later chain gets no colour (0). |
| Tracer.TraceAllAppends | tracer.go:99-101 | After any sequence of `Trace` calls on index i, replaying i gives the old blocks followed by the new ones in call order. Other chains are unchanged. |
| Tracer.InterleavedReplay | tracer.go:62-102 | Interleaved traces on two indices replay per index in call order, and a repeated replay gives the same blocks. |
| Tracer.PrintBlock | tracer.go:137-157 | Shows the arguments padded to 44 columns, then one row per field in iteration order with its value truncated to 128 bytes plus "...", then the JSON, then the separator line. A marshalling failure panics. |

## Left out

- Concurrency: `entryPool`/`sync.Pool`, `MutexWrap`, `SetNoLock` and the lock taken by `SetOutput`. Entries are immutable values, and each operation is one atomic step.
- I/O: the bytes written to `Out`, `os.Stderr` and file outputs. A writer is an identity (`Stderr` or `Sink(id)`), and a record is a value rather than bytes written.
- Platform inputs: `runtime.Caller`, `runtime.GOOS` and terminal detection are parameters (`callerKnown`/`file`/`line`, `Platform`).
- Time: `time.Now`, `miniTS` and `Time.Format` are represented by a `Stamp` (elapsed seconds or a layout to format with). The formatted text itself is not modelled.
- Library calls whose source is not available are treated as opaque:
  - `json.Marshal` is a `Marshalled` value, either encoded JSON or an error message;
  - `json.Indent` (`prettyJSON`) is taken as the identity on the JSON text: the re-indentation and the "JSON parse error: …" text for invalid JSON are not modelled;
  - `fmt.Sprint`/`%+v`/`%q` values arrive already rendered;
  - `%q` quoting is a `Quoted` chunk rather than its escaped text.
- Strings.Split: an empty separator splits into bytes, where Go's `strings.Split` splits into UTF-8 characters. The two agree on ASCII.
- Logging.RegexpParse: only the one pattern `^\[\w+\]` is modelled, as a direct scan, not the general regexp engine. The parser is assumed to have been set up by `prefixRegex` (logger.go:189-192), which is the only place that sets its pattern and which nothing in the files modelled calls. A `RegexpParser` without that set-up calls `Find` on a nil pattern (logger.go:195) and panics on every input, which the model does not represent.
- entry.go is not part of this model. The model assumes the following about it:
  - `Entry` is a module name, a field map and an optional JSON payload.
  - `Entry.WithField`/`WithFields`/`WithError`/`WithJsonRaw` add to the fields or set the JSON.
  - `ErrorKey` is "error", and `DefaultTimestampFormat` is RFC 3339.
  - `Entry.log` hands on the level, message and call depth of a record.
  - The entry carries no buffer of its own, so `Format` starts from a fresh buffer. The `entry.GetBuffer()` branch (text_formatter.go:70-74) is not modelled.
- `prefixFieldClashes`, `ParseLevel`, `Level.String` and `dumpStacks` are defined outside the files modelled here. `ParseLevel` and `Level.String` follow the behaviour logrus_test.go:120-188 shows, and `prefixFieldClashes` is left out.
- Levels.ParseLevel: folds case over ASCII letters only. Go's `strings.ToLower` also maps some non-ASCII letters onto ASCII ones: U+0130 becomes 'i', so Go parses "İNFO" as Info, while the model reports an error.
- Fatal and Panic only emit records in this model. The process exit and the unwind after the record are not modelled.
- Tracer.Trace: a block keeps its fields, object and arguments as values already rendered when `Trace` runs. In the code, `newTraceBlock` (tracer.go:120-128) keeps references to the caller's map and object. `printBlock` renders and marshals them only when `TraceEnd` runs (tracer.go:139-150). So a change the caller makes between the two calls shows in the output, and the model does not represent it.
- Tracer.PrintBlock: the write to the standard logger's output is left out. That write also creates the standard logger if it does not exist yet (tracer.go:159-161).
- The forwarding wrappers `TraceWithStruct`, `TraceFileds`, `TraceArgs` and their `Default` forms (tracer.go:26-36, 50-60) are left out.
  - `TraceArgs` and `TraceArgsDefault` pass their argument slice to `Trace` as a single argument, so the message is rendered in brackets, such as "[a b]".
  - `TraceWithStruct` and `TraceFileds` pass one nil argument, so the message is "<nil>".
  - In the model, a message is whatever text the caller passes to `Tracer.Trace`.
- `SetPrintLineNumber`, `DumpStacks`, `PrettyJson` and `Logger.Name` are left out. They configure the standard library's `log` package, print, or are a bare getter.
- Padding: only `Tracer.PrintBlock` pads, through `PadRight(…, 44)` for the `%-44s` of tracer.go:140, and `FormatShortFile` pads the line number to three columns. `PadRight` counts bytes where Go counts runes, so the two differ only for non-ASCII text.
- The text formatter's own padding is not modelled: a `Header` part holds the message unpadded (the `%-44s` of text_formatter.go:151,153), its elapsed-seconds stamp is a number rather than the `%04d` text, and field lines hold their keys unpadded (the `%-8s` of text_formatter.go:104,160 and tracer.go:147). Parts are compared as values, so these widths change no property stated here.
- TextFormat.FormatLayout: the record is a sequence of parts, and its final `Newline` part is the only `Newline` part. The bytes can hold further line breaks. Each field line and the JSON are preceded by "\n" (text_formatter.go:104, 109, 160, 165), and a value or JSON text may itself end in '\n'.
- Facts about the code that are easy to misread:
  - Truncation cuts a long value to its 128-byte prefix followed by "..." (`Strings.Truncate`).
  - `generateNewChain` marks every unused colour as used. So only the first chain gets a palette colour, and every later chain gets 0 (`Tracer.ChainColors`).
  - A record does not print the logger's module name. It prints the caller's file and line.
  - The doc comment of the package-level `Print` (exported.go:151) says it logs at Info. The code logs at the standard logger's current level, and so does the model.

=== FILE: exported.dfy ===
/** The package-level functions of exported.go. They act on the standard
    logger, which the first use creates, and on the registry of every logger
    `New` has made. */
module Exported {
  import opened Wrappers
  import opened Levels
  import opened Strings
  import opened Logging

  /** The call depth the package-level `Highlight` hands to the entry. */
  const ExportedCallDepth: nat := 6

  /*
   * The standard logger
   */

  /** `StandardLogger`: the existing standard logger, or a new one made by
      `New()` and then appended to the registry once more. */
  function StandardLogger(w: World): (r: (World, nat))
    requires Valid(w)
    ensures Valid(r.0) && r.0.std == Some(r.1) && r.1 < |r.0.arena|
    ensures w.std.Some? ==> r == (w, w.std.value)
    ensures w.std.None? ==>
      r.1 == |w.arena| && r.0.arena == w.arena + [Fresh([])] && r.0.registry == w.registry + [r.1, r.1]
  {
    match w.std
    case Some(id) => (w, id)
    case None =>
      var (w1, id) := New(w, []);
      (w1.(registry := w1.registry + [id], std := Some(id)), id)
  }

  /** Once made, the standard logger is returned as is and nothing changes. */
  lemma StandardLoggerIdempotent(w: World)
    requires Valid(w)
    ensures StandardLogger(StandardLogger(w).0) == StandardLogger(w)
    ensures w.std.None? ==> StandardLogger(w).0.arena[StandardLogger(w).1].moduleName == "main"
  {
    if w.std.None? {
      assert StandardLogger(w).0.arena[|w.arena|] == Fresh([]);
    }
  }

  /** The first call leaves the new standard logger in the registry twice:
      once from `New` and once more from `StandardLogger` itself. */
  lemma {:induction false} StandardLoggerRegisteredTwice(w: World)
    requires Valid(w) && w.std.None?
    ensures multiset(StandardLogger(w).0.registry)[StandardLogger(w).1] == 2
  {
    var id := |w.arena|;
    assert id !in w.registry;
    assert multiset(w.registry)[id] == 0;
    assert multiset(w.registry + [id, id]) == multiset(w.registry) + multiset{id, id};
  }

  /*
   * Output fan-out
   */

  /** The arena after each logger named in `ids` has its output set. */
  function FanOut(arena: seq<Logger>, ids: seq<nat>, out: Writer): (r: seq<Logger>)
    requires forall k :: 0 <= k < |ids| ==> ids[k] < |arena|
    ensures |r| == |arena|
    ensures forall k :: 0 <= k < |arena| ==> r[k] == if k in ids then arena[k].(out := out) else arena[k]
    decreases |ids|
  {
    if |ids| == 0 then arena
    else FanOut(arena[ids[0] := arena[ids[0]].(out := out)], ids[1..], out)
  }

  /** `SetOutput`: every logger in the registry now writes to `out`; the
      others, the registry and the standard logger are untouched. */
  function SetOutput(w: World, out: Writer): (r: World)
    requires Valid(w)
    ensures Valid(r) && r.registry == w.registry && r.std == w.std && |r.arena| == |w.arena|
    ensures forall k :: 0 <= k < |w.registry| ==> r.arena[w.registry[k]].out == out
    ensures forall k :: 0 <= k < |w.arena| && k in w.registry ==> r.arena[k] == w.arena[k].(out := out)
    ensures forall k :: 0 <= k < |w.arena| && k !in w.registry ==> r.arena[k] == w.arena[k]
  {
    w.(arena := FanOut(w.arena, w.registry, out))
  }

  /** The fan-out depends only on which loggers are registered: repeats and
      order do not matter, and a second fan-out changes nothing. */
  lemma FanOutBySet(w: World, v: World, out: Writer)
    requires Valid(w) && Valid(v) && w.arena == v.arena
    requires forall k :: k in w.registry <==> k in v.registry
    ensures SetOutput(w, out).arena == SetOutput(v, out).arena
    ensures SetOutput(SetOutput(w, out), out) == SetOutput(w, out)
  {
    var a, b := SetOutput(w, out).arena, SetOutput(v, out).arena;
    assert forall k :: 0 <= k < |a| ==> a[k] == b[k];
    var c := SetOutput(SetOutput(w, out), out).arena;
    assert forall k :: 0 <= k < |a| ==> c[k] == a[k];
  }

  /*
   * The standard logger's threshold
   */

  /** `SetLevel`: sets the standard logger's threshold, creating it first
      when needed. */
  function SetLevel(w: World, level: Level): (r: World)
    requires Valid(w)
    ensures Valid(r) && r.std.Some? && r.arena[r.std.value].level == level
    ensures var (w1, id) := StandardLogger(w);
      && r.std == Some(id) && r.registry == w1.registry && |r.arena| == |w1.arena|
      && r.arena[id] == w1.arena[id].(level := level)
      && forall k :: 0 <= k < |w1.arena| && k != id ==> r.arena[k] == w1.arena[k]
  {
    var (w1, id) := StandardLogger(w);
    Logging.SetLevel(w1, id, level)
  }

  /** `GetLevel`: the standard logger's threshold, creating it first when
      needed (a new one is at Debug). */
  function GetLevel(w: World): (r: (World, Level))
    requires Valid(w)
    ensures Valid(r.0) && r.0.std.Some? && r.1 == r.0.arena[r.0.std.value].level
    ensures w.std.None? ==> r.1 == Debug
    ensures w.std.Some? ==> r.0 == w
  {
    var (w1, id) := StandardLogger(w);
    (w1, w1.arena[id].level)
  }

  /** `GetLevel` right after `SetLevel(l)` returns `l` and changes nothing. */
  lemma GetAfterSet(w: World, level: Level)
    requires Valid(w)
    ensures GetLevel(SetLevel(w, level)) == (SetLevel(w, level), level)
  {
  }

  /*
   * Entries from the standard logger
   */

  /** `WithField` on the standard logger. */
  function WithField(w: World, key: string, value: string): (r: (World, Entry))
    requires Valid(w)
    ensures Valid(r.0) && r.0 == StandardLogger(w).0
    ensures r.1.data == map[key := value] && r.1.jsonRaw == None
    ensures r.1.moduleName == r.0.arena[r.0.std.value].moduleName
  {
    var (w1, id) := StandardLogger(w);
    (w1, Logging.WithField(w1.arena[id], key, value))
  }

  /** `WithFields` on the standard logger. */
  function WithFields(w: World, fields: map<string, string>): (r: (World, Entry))
    requires Valid(w)
    ensures Valid(r.0) && r.0 == StandardLogger(w).0
    ensures r.1.data == fields && r.1.jsonRaw == None
    ensures r.1.moduleName == r.0.arena[r.0.std.value].moduleName
  {
    var (w1, id) := StandardLogger(w);
    (w1, Logging.WithFields(w1.arena[id], fields))
  }

  /** `WithError`: the error's text under `ErrorKey` on the standard logger. */
  function WithError(w: World, err: string): (r: (World, Entry))
    requires Valid(w)
    ensures Valid(r.0) && r.0 == StandardLogger(w).0
    ensures r.1.data == map["error" := err] && r.1.jsonRaw == None
    ensures r.1.moduleName == r.0.arena[r.0.std.value].moduleName
  {
    WithField(w, ErrorKey, err)
  }

  /** `WithJsonRaw` on the standard logger. */
  function WithJsonRaw(w: World, bs: string): (r: (World, Entry))
    requires Valid(w)
    ensures Valid(r.0) && r.0 == StandardLogger(w).0
    ensures r.1.data == map[] && r.1.jsonRaw == Some(bs)
    ensures r.1.moduleName == r.0.arena[r.0.std.value].moduleName
  {
    var (w1, id) := StandardLogger(w);
    (w1, Logging.WithJsonRaw(w1.arena[id], bs))
  }

  /** `WithStruct`: the encoding as the raw payload, or the encoding error
      under `ErrorKey`. */
  function WithStruct(w: World, marshalled: Marshalled): (r: (World, Entry))
    requires Valid(w)
    ensures Valid(r.0) && r.0 == StandardLogger(w).0
    ensures marshalled.Encoded? ==> r.1.data == map[] && r.1.jsonRaw == Some(marshalled.json)
    ensures marshalled.MarshalError? ==> r.1.data == map["error" := marshalled.message] && r.1.jsonRaw == None
    ensures r.1.moduleName == r.0.arena[r.0.std.value].moduleName
  {
    match marshalled
    case Encoded(bs) => WithJsonRaw(w, bs)
    case MarshalError(err) => WithError(w, err)
  }

  /** The standard logger's entry agrees with the logger method's one. */
  lemma WithStructAgrees(w: World, marshalled: Marshalled)
    requires Valid(w)
    ensures WithStruct(w, marshalled).1 ==
      Logging.WithStruct(StandardLogger(w).0.arena[StandardLogger(w).1], marshalled)
  {
  }

  /*
   * AddFields
   */

  /** A variadic argument: a string, or any other value with its `%+v`
      rendering. */
  datatype Arg = Str(text: string) | Value(rendered: string)

  function Rendered(a: Arg): string
  {
    match a
    case Str(s) => s
    case Value(v) => v
  }

  /** The argument list with an odd length padded by an empty string. */
  function Padded(args: seq<Arg>): (p: seq<Arg>)
    ensures |p| % 2 == 0 && |args| <= |p| <= |args| + 1 && p[..|args|] == args
  {
    if |args| % 2 != 0 then args + [Str("")] else args
  }

  /** `i` is the last even position of `p` holding the key `key`. */
  predicate LastKeyAt(p: seq<Arg>, key: string, i: nat)
  {
    i < |p| && i % 2 == 0 && p[i] == Str(key) &&
    forall j :: i < j < |p| && j % 2 == 0 ==> p[j] != Str(key)
  }

  /** The fields the first `i` arguments give, pair by pair, each pair
      overwriting an earlier one with the same key. */
  function PairedUpTo(p: seq<Arg>, i: nat): map<string, string>
    requires i <= |p| && i % 2 == 0
    requires forall j :: 0 <= j < i && j % 2 == 0 ==> p[j].Str?
  {
    if i == 0 then map[] else PairedUpTo(p, i - 2)[p[i - 2].text := Rendered(p[i - 1])]
  }

  /** The keys of the pairs are the strings at the even positions. */
  lemma {:induction false} PairedKeys(p: seq<Arg>, i: nat)
    requires i <= |p| && i % 2 == 0
    requires forall j :: 0 <= j < i && j % 2 == 0 ==> p[j].Str?
    ensures forall key :: key in PairedUpTo(p, i) <==> exists j :: 0 <= j < i && j % 2 == 0 && p[j] == Str(key)
  {
    if i > 0 {
      PairedKeys(p, i - 2);
    }
  }

  /** A key's value comes from the last pair that names it. */
  lemma {:induction false} PairedLast(p: seq<Arg>, i: nat, key: string, j: nat)
    requires i <= |p| && i % 2 == 0
    requires forall m :: 0 <= m < i && m % 2 == 0 ==> p[m].Str?
    requires j < i && j % 2 == 0 && p[j] == Str(key)
    requires forall m :: j < m < i && m % 2 == 0 ==> p[m] != Str(key)
    ensures key in PairedUpTo(p, i) && PairedUpTo(p, i)[key] == Rendered(p[j + 1])
  {
    if j < i - 2 {
      PairedLast(p, i - 2, key, j);
    }
  }

  /** The pairing loop of `AddFields`: each even-position string keys the
      value after it, a later repeat of a key overwrites, and a key that is
      not a string panics at the first such position. */
  method PairUp(args: seq<Arg>) returns (r: Result<map<string, string>>)
    ensures r.Err? <==> exists i :: 0 <= i < |Padded(args)| && i % 2 == 0 && !Padded(args)[i].Str?
    ensures r.Err? ==> (r.error.KeyNotString? && r.error.position % 2 == 0 &&
      r.error.position < |Padded(args)| && !Padded(args)[r.error.position].Str? &&
      forall j :: 0 <= j < r.error.position && j % 2 == 0 ==> Padded(args)[j].Str?)
    ensures r.Ok? ==> forall key :: key in r.value <==>
      exists i :: 0 <= i < |Padded(args)| && i % 2 == 0 && Padded(args)[i] == Str(key)
    ensures r.Ok? ==> forall key, i :: LastKeyAt(Padded(args), key, i) ==> r.value[key] == Rendered(Padded(args)[i + 1])
  {
    var p := Padded(args);
    var data: map<string, string> := map[];
    var i := 0;
    while i < |p|
      invariant 0 <= i <= |p| && i % 2 == 0
      invariant forall j :: 0 <= j < i && j % 2 == 0 ==> p[j].Str?
      invariant data == PairedUpTo(p, i)
    {
      if !p[i].Str? {
        return Err(KeyNotString(i));
      }
      data := data[p[i].text := Rendered(p[i + 1])];
      i := i + 2;
    }
    PairedKeys(p, i);
    forall key, j | LastKeyAt(p, key, j)
      ensures data[key] == Rendered(p[j + 1])
    {
      PairedLast(p, i, key, j);
    }
    return Ok(data);
  }

  /** `AddFields`: the paired arguments as the standard logger's fields;
      with no arguments, an entry without fields. */
  method AddFields(w: World, args: seq<Arg>) returns (r: Result<(World, Entry)>)
    requires Valid(w)
    ensures |args| == 0 ==> r.Ok? && r.value.1.data == map[]
    ensures r.Ok? ==> Valid(r.value.0) && r.value.0 == StandardLogger(w).0
    ensures r.Ok? ==> r.value.1.moduleName == r.value.0.arena[r.value.0.std.value].moduleName && r.value.1.jsonRaw == None
    ensures r.Ok? ==> forall i :: 0 <= i < |args| && i % 2 == 0 ==> args[i].Str? && args[i].text in r.value.1.data
    ensures r.Ok? ==> forall key :: key in r.value.1.data ==> exists i :: 0 <= i < |args| && i % 2 == 0 && args[i] == Str(key)
    ensures r.Ok? ==> forall key, i :: LastKeyAt(Padded(args), key, i) ==>
      r.value.1.data[key] == Rendered(Padded(args)[i + 1])
    ensures r.Err? <==> exists i :: 0 <= i < |args| && i % 2 == 0 && !args[i].Str?
  {
    var pairs := PairUp(args);
    assert forall i :: 0 <= i < |args| ==> Padded(args)[i] == args[i];
    if pairs.Err? {
      return Err(pairs.error);
    }
    r := Ok(WithFields(w, pairs.value));
  }

  /*
   * Long text, keeping only the last line
   */

  /** `i` is the last non-empty segment. */
  predicate LastNonEmpty(segments: seq<string>, i: nat)
  {
    i < |segments| && segments[i] != "" && forall j :: i < j < |segments| ==> segments[j] == ""
  }

  /** The loop of the package-level `WithLongString`: each non-empty
      segment replaces the entry built so far by a fresh one holding just
      that segment, so only the last survives. */
  method LastSegmentEntry(logger: Logger, key: string, segments: seq<string>) returns (e: Option<Entry>)
    ensures e.None? <==> forall i :: 0 <= i < |segments| ==> segments[i] == ""
    ensures e.Some? ==>
      exists i: nat :: LastNonEmpty(segments, i) && e.value.data == map[FieldKey(key, i) := segments[i]]
  {
    e := None;
    var i := 0;
    ghost var last := 0;
    while i < |segments|
      invariant 0 <= i <= |segments|
      invariant e.None? <==> forall j :: 0 <= j < i ==> segments[j] == ""
      invariant e.Some? ==> LastNonEmpty(segments[..i], last)
      invariant e.Some? ==> e.value.data == map[FieldKey(key, last) := segments[last]]
    {
      if segments[i] != "" {
        e := Some(Logging.WithField(logger, FieldKey(key, i), segments[i]));
        last := i;
      }
      i := i + 1;
    }
    assert segments[..i] == segments;
  }

  /** The package-level `WithLongString`: unlike the logger method, each
      non-empty piece starts a fresh entry from the standard logger, so only
      the last one is returned, holding just that piece; None when every
      piece is empty. */
  method WithLongString(w: World, key: string, longStr: string, sep: string) returns (r: World, e: Option<Entry>)
    requires Valid(w)
    ensures Valid(r) && r == StandardLogger(w).0
    ensures e.None? <==> forall i :: 0 <= i < |Split(longStr, sep)| ==> Split(longStr, sep)[i] == ""
    ensures e.Some? ==>
      exists i: nat :: LastNonEmpty(Split(longStr, sep), i) && e.value.data == map[FieldKey(key, i) := Split(longStr, sep)[i]]
  {
    var id;
    r, id := StandardLogger(w).0, StandardLogger(w).1;
    e := LastSegmentEntry(r.arena[id], key, Split(longStr, sep));
  }

  /** The package-level `WithMultiLines`: `WithLongString` on line breaks. */
  method WithMultiLines(w: World, key: string, longStr: string) returns (r: World, e: Option<Entry>)
    requires Valid(w)
    ensures Valid(r) && r == StandardLogger(w).0
    ensures e.None? <==> forall i :: 0 <= i < |Split(longStr, "\n")| ==> Split(longStr, "\n")[i] == ""
    ensures e.Some? ==>
      exists i: nat :: LastNonEmpty(Split(longStr, "\n"), i) && e.value.data == map[FieldKey(key, i) := Split(longStr, "\n")[i]]
  {
    r, e := WithLongString(w, key, longStr, "\n");
  }

  /*
   * Logging through the standard logger
   */

  /** A package-level logging call: the standard logger's method, with
      `Highlight` at the package's own call depth. */
  function Log(w: World, call: Call): (r: (World, Option<Record>))
    requires Valid(w) && Declared(call.family, call.form)
    ensures Valid(r.0) && r.0 == StandardLogger(w).0
    ensures r.1.Some? <==> Gate(call.family).None? || Enabled(r.0.arena[r.0.std.value].level, Gate(call.family).value)
    ensures r.1.Some? && Gate(call.family).Some? ==> r.1.value.level == Gate(call.family).value
    ensures call.family == Print ==> r.1 == Some(Record(r.0.arena[r.0.std.value].level, call.text, 0))
    ensures call.family == Highlight ==> r.1 == Some(Record(Error, call.text, ExportedCallDepth))
    ensures call.family != Highlight ==> r.1 == Dispatch(r.0.arena[r.0.std.value], call)
    ensures r.1.Some? && Gate(call.family).Some? ==> r.1.value == Record(Gate(call.family).value, call.text, 0)
    ensures call.family == Pass ==> r.1 == Some(Record(Info, "[PASS]" + call.text, 0))
    ensures call.family == Success ==> r.1 == Some(Record(Info, "[OK]" + call.text, 0))
    ensures call.family == Failed ==> r.1 == Some(Record(Error, "[FAIL]" + call.text, 0))
  {
    var (w1, id) := StandardLogger(w);
    var record := Dispatch(w1.arena[id], call);
    (w1, if call.family == Highlight then Some(Record(Error, call.text, ExportedCallDepth)) else record)
  }

  /** Before any `SetLevel` the standard logger lets every call through; after
      `SetLevel(l)` a gated call at `g` passes exactly when `g` is at most as
      verbose as `l`. */
  lemma LogAfterSetLevel(w: World, level: Level, g: Level, form: Form, text: string)
    requires Valid(w)
    ensures w.std.None? ==> Log(w, Call(Gated(g), form, text)).1.Some?
    ensures Log(SetLevel(w, level), Call(Gated(g), form, text)).1.Some? <==> Rank(g) <= Rank(level)
  {
  }
}

=== FILE: levels.dfy ===
/** Severities of the logging package and the parsers that map text onto
    them. The numeric values follow the package's `Level` constants: Panic is
    0 and Debug is 5, and "logger.Level >= X" enables X. */
module Levels {
  import opened Wrappers

  datatype Level = Panic | Fatal | Error | Warn | Info | Debug

  /** The numeric value of a level: larger means more verbose. */
  function Rank(l: Level): (r: nat)
    ensures r < 6
  {
    match l
    case Panic => 0
    case Fatal => 1
    case Error => 2
    case Warn => 3
    case Info => 4
    case Debug => 5
  }

  /** A call at severity `l` passes a logger whose threshold is `threshold`. */
  predicate Enabled(threshold: Level, l: Level)
  {
    Rank(threshold) >= Rank(l)
  }

  /** Enabled is a total order on the six levels, with Panic least verbose. */
  lemma EnabledIsTotalOrder(a: Level, b: Level, c: Level)
    ensures Enabled(a, a)
    ensures Enabled(a, b) && Enabled(b, a) ==> a == b
    ensures Enabled(a, b) && Enabled(b, c) ==> Enabled(a, c)
    ensures Enabled(a, b) || Enabled(b, a)
    ensures Enabled(a, Panic) && Enabled(Debug, a)
  {
  }

  /** The text of `Level.String()`. */
  function Name(l: Level): string
  {
    match l
    case Panic => "panic"
    case Fatal => "fatal"
    case Error => "error"
    case Warn => "warning"
    case Info => "info"
    case Debug => "debug"
  }

  predicate IsUpper(c: char) { 'A' <= c <= 'Z' }
  predicate IsLower(c: char) { 'a' <= c <= 'z' }

  function LowerChar(c: char): char
  {
    if IsUpper(c) then (c as int - 'A' as int + 'a' as int) as char else c
  }

  function UpperChar(c: char): char
  {
    if IsLower(c) then (c as int - 'a' as int + 'A' as int) as char else c
  }

  /** ASCII lower-casing. `strings.ToLower` also folds non-ASCII letters,
      some of them onto ASCII ones (U+0130 becomes 'i'); that is not
      modelled. */
  function Lower(s: string): (r: string)
    ensures |r| == |s|
    ensures forall i :: 0 <= i < |s| ==> r[i] == LowerChar(s[i])
  {
    if s == [] then [] else [LowerChar(s[0])] + Lower(s[1..])
  }

  /** ASCII upper-casing, as `strings.ToUpper` does on the level names. */
  function Upper(s: string): (r: string)
    ensures |r| == |s|
    ensures forall i :: 0 <= i < |s| ==> r[i] == UpperChar(s[i])
  {
    if s == [] then [] else [UpperChar(s[0])] + Upper(s[1..])
  }

  /** Lower-casing twice is lower-casing once. */
  lemma {:induction false} LowerIdempotent(s: string)
    ensures Lower(Lower(s)) == Lower(s)
  {
    if s != [] {
      LowerIdempotent(s[1..]);
      assert Lower(s)[1..] == Lower(s[1..]);
    }
  }

  /** Upper-casing first does not change what lower-casing yields. */
  lemma {:induction false} LowerOfUpper(s: string)
    ensures Lower(Upper(s)) == Lower(s)
  {
    if s != [] {
      LowerOfUpper(s[1..]);
      assert Upper(s)[1..] == Upper(s[1..]);
    }
  }

  /** The words `ParseLevel` accepts, once lower-cased. */
  predicate IsLevelWord(w: string)
  {
    w in {"panic", "fatal", "error", "warn", "warning", "info", "debug"}
  }

  /** The level a lower-case word names. */
  function ParseWord(w: string): (r: Result<Level>)
    ensures r.Ok? <==> IsLevelWord(w)
    ensures r.Ok? ==> w == Name(r.value) || (r.value == Warn && w == "warn")
  {
    match w
    case "panic" => Ok(Panic)
    case "fatal" => Ok(Fatal)
    case "error" => Ok(Error)
    case "warn" => Ok(Warn)
    case "warning" => Ok(Warn)
    case "info" => Ok(Info)
    case "debug" => Ok(Debug)
    case _ => Err(NotALevel(w))
  }

  /** `ParseLevel`: a case-insensitive match of a level name, with "warn"
      accepted beside "warning"; any other text is an error. */
  function ParseLevel(s: string): (r: Result<Level>)
    ensures r.Ok? <==> IsLevelWord(Lower(s))
    ensures r.Ok? ==> Lower(s) == Name(r.value) || (r.value == Warn && Lower(s) == "warn")
    ensures r.Err? ==> r.error == NotALevel(s)
  {
    var r := ParseWord(Lower(s));
    if r.Ok? then r else Err(NotALevel(s))
  }

  /** Parsing ignores case: the upper-cased or lower-cased text parses to
      the same level as the text itself. */
  lemma ParseLevelIgnoresCase(s: string)
    ensures ParseLevel(Upper(s)).Ok? == ParseLevel(s).Ok?
    ensures ParseLevel(Lower(s)).Ok? == ParseLevel(s).Ok?
    ensures ParseLevel(s).Ok? ==> ParseLevel(Upper(s)) == ParseLevel(s) == ParseLevel(Lower(s))
  {
    LowerOfUpper(s);
    LowerIdempotent(s);
  }

  /* One lemma per level name: each literal is lower case and parses. */
  lemma PanicWord()
    ensures Lower("panic") == "panic" && ParseWord("panic") == Ok(Panic)
  {
    LowerKeepsLowerCase("panic");
  }

  lemma FatalWord()
    ensures Lower("fatal") == "fatal" && ParseWord("fatal") == Ok(Fatal)
  {
    LowerKeepsLowerCase("fatal");
  }

  lemma ErrorWord()
    ensures Lower("error") == "error" && ParseWord("error") == Ok(Error)
  {
    LowerKeepsLowerCase("error");
  }

  lemma WarnWord()
    ensures Lower("warning") == "warning" && ParseWord("warning") == Ok(Warn)
  {
    LowerKeepsLowerCase("warning");
  }

  lemma InfoWord()
    ensures Lower("info") == "info" && ParseWord("info") == Ok(Info)
  {
    LowerKeepsLowerCase("info");
  }

  lemma DebugWord()
    ensures Lower("debug") == "debug" && ParseWord("debug") == Ok(Debug)
  {
    LowerKeepsLowerCase("debug");
  }

  /** Every level's name is a lower-case word that names that level. */
  lemma NameIsLevelWord(l: Level)
    ensures Lower(Name(l)) == Name(l)
    ensures ParseWord(Name(l)) == Ok(l)
  {
    match l {
      case Panic => PanicWord();
      case Fatal => FatalWord();
      case Error => ErrorWord();
      case Warn => WarnWord();
      case Info => InfoWord();
      case Debug => DebugWord();
    }
  }

  /** Every level's name parses back to that level, in either case. */
  lemma NameRoundTrip(l: Level)
    ensures ParseLevel(Name(l)) == Ok(l)
    ensures ParseLevel(Upper(Name(l))) == Ok(l)
  {
    NameIsLevelWord(l);
    ParseLevelIgnoresCase(Name(l));
  }

  /** Text without upper-case letters is its own lower-case form. */
  lemma LowerKeepsLowerCase(s: string)
    requires forall i :: 0 <= i < |s| ==> !IsUpper(s[i])
    ensures Lower(s) == s
  {
  }
}

=== FILE: logger.dfy ===
/** The `Logger` of logger.go: the registry of loggers, the severity gate of
    the logging methods, the entries a logger starts, the splitting of long
    text into numbered fields, and the two parsers that read a level off the
    front of a log line. Message text arrives already rendered by
    `fmt.Sprint`, `fmt.Sprintf` or `fmt.Sprintln`. */
module Logging {
  import opened Wrappers
  import opened Levels
  import opened Strings
  import TextFormat

  /** Where a logger writes: standard error, or another writer told apart by
      an identity. */
  datatype Writer = Stderr | Sink(id: nat)

  datatype Logger = Logger(out: Writer, formatter: TextFormat.Config, level: Level, moduleName: string)

  /** The call depth `Highlight` hands to the entry, so that the reported
      caller is the user's code rather than the logger. */
  const DefaultCallDepth: nat := 6

  /*
   * The logging methods
   */

  /** The families of logging methods. `Gated(l)` is Debug, Info, Warn,
      Error, Fatal or Panic; `Warning` is the alias of Warn that exists only
      in its `f` and `ln` forms. */
  datatype Method = Gated(level: Level) | Warning | Print | Pass | Success | Failed | Highlight

  /** Plain (`Sprint`), formatted (`Sprintf`) and line (`Sprintln`) forms. */
  datatype Form = Plain | Formatted | Line

  /** The forms the logger declares for each family. */
  predicate Declared(m: Method, form: Form)
  {
    match m
    case Warning => form != Plain
    case Pass | Success | Failed | Highlight => form != Line
    case _ => true
  }

  /** One call of a logging method, with its arguments already rendered. */
  datatype Call = Call(family: Method, form: Form, text: string)

  /** What a call hands to the entry: level, message and call depth. */
  datatype Record = Record(level: Level, message: string, callDepth: nat)

  /** The level a family checks against the logger's threshold, if any. */
  function Gate(m: Method): Option<Level>
  {
    match m
    case Gated(l) => Some(l)
    case Warning => Some(Warn)
    case _ => None
  }

  /** The record one call produces, or None when the gate holds it back. */
  function Dispatch(logger: Logger, call: Call): (r: Option<Record>)
    requires Declared(call.family, call.form)
    ensures r.Some? <==> Gate(call.family).None? || Enabled(logger.level, Gate(call.family).value)
    ensures r.Some? && Gate(call.family).Some? ==>
      r.value == Record(Gate(call.family).value, call.text, 0) && Enabled(logger.level, r.value.level)
    ensures call.family == Print ==> r == Some(Record(logger.level, call.text, 0))
    ensures call.family == Pass ==> r == Some(Record(Info, "[PASS]" + call.text, 0))
    ensures call.family == Success ==> r == Some(Record(Info, "[OK]" + call.text, 0))
    ensures call.family == Failed ==> r == Some(Record(Error, "[FAIL]" + call.text, 0))
    ensures call.family == Highlight ==> r == Some(Record(Error, call.text, DefaultCallDepth))
  {
    var text := call.text;
    match call.family
    case Gated(l) => if Rank(logger.level) >= Rank(l) then Some(Record(l, text, 0)) else None
    case Warning => if Rank(logger.level) >= Rank(Warn) then Some(Record(Warn, text, 0)) else None
    case Print => Some(Record(logger.level, text, 0))
    case Pass => Some(Record(Info, "[PASS]" + text, 0))
    case Success => Some(Record(Info, "[OK]" + text, 0))
    case Failed => Some(Record(Error, "[FAIL]" + text, 0))
    case Highlight => Some(Record(Error, text, DefaultCallDepth))
  }

  /** Raising the threshold never silences a call, and the record it gives
      is the same unless it is a Print, which takes the logger's level. */
  lemma GatingMonotone(quiet: Logger, verbose: Logger, call: Call)
    requires Declared(call.family, call.form)
    requires Rank(quiet.level) <= Rank(verbose.level)
    ensures Dispatch(quiet, call).Some? ==> Dispatch(verbose, call).Some?
    ensures call.family != Print ==> Dispatch(quiet, call).Some? ==> Dispatch(verbose, call) == Dispatch(quiet, call)
  {
  }

  /** At threshold Panic only Panic-level gated calls pass, while the
      ungated families still emit; at threshold Debug every call emits. */
  lemma ThresholdExtremes(logger: Logger, call: Call)
    requires Declared(call.family, call.form)
    ensures logger.level == Debug ==> Dispatch(logger, call).Some?
    ensures logger.level == Panic ==> (Dispatch(logger, call).Some? <==> Gate(call.family) in {None, Some(Panic)})
  {
  }

  /*
   * The registry of loggers
   */

  /** The loggers created so far (`arena`, indexed by identity), the package
      registry `loggers` (identities, possibly repeated), and the standard
      logger once it exists. */
  datatype World = World(arena: seq<Logger>, registry: seq<nat>, std: Option<nat>)

  /** Every identity the registry and the standard logger hold is allocated. */
  predicate Valid(w: World)
  {
    (forall k :: 0 <= k < |w.registry| ==> w.registry[k] < |w.arena|) &&
    (w.std.Some? ==> w.std.value < |w.arena|)
  }

  const InitialWorld := World([], [], None)

  /** The module name `New` gives: "main" without names, else the names
      joined with "/". */
  function ModuleName(names: seq<string>): string
  {
    if |names| == 0 then "main" else Join(names, "/")
  }

  /** A logger as `New` builds it. */
  function Fresh(names: seq<string>): Logger
  {
    Logger(Stderr, TextFormat.DefaultConfig, Debug, ModuleName(names))
  }

  /** `New`: allocates a logger writing to standard error at Debug with the
      default renderer, and appends it to the registry. */
  function New(w: World, names: seq<string>): (r: (World, nat))
    requires Valid(w)
    ensures Valid(r.0)
    ensures r.1 == |w.arena| && |r.0.arena| == |w.arena| + 1 && r.0.arena[..|w.arena|] == w.arena
    ensures r.0.arena[r.1].out == Stderr && r.0.arena[r.1].level == Debug
    ensures r.0.arena[r.1].formatter == TextFormat.DefaultConfig
    ensures |names| == 0 ==> r.0.arena[r.1].moduleName == "main"
    ensures |names| > 0 ==> r.0.arena[r.1].moduleName == Join(names, "/")
    ensures r.0.registry == w.registry + [r.1] && r.0.std == w.std
  {
    (World(w.arena + [Fresh(names)], w.registry + [|w.arena|], w.std), |w.arena|)
  }

  /** The names a logger was created with can be read back from its module
      name, when none of them contains "/". */
  lemma ModuleNameSplits(names: seq<string>)
    requires |names| >= 1
    requires forall k :: 0 <= k < |names| ==> '/' !in names[k]
    ensures Split(ModuleName(names), "/") == names
  {
    SplitJoin(names, "/");
  }

  /** `Logger.SetOutput`: only the output of logger `id` changes. */
  function SetOutput(w: World, id: nat, out: Writer): (r: World)
    requires Valid(w) && id < |w.arena|
    ensures Valid(r)
    ensures |r.arena| == |w.arena| && r.registry == w.registry && r.std == w.std
    ensures r.arena[id] == w.arena[id].(out := out)
    ensures forall k :: 0 <= k < |w.arena| && k != id ==> r.arena[k] == w.arena[k]
  {
    w.(arena := w.arena[id := w.arena[id].(out := out)])
  }

  /** `Logger.SetLevel`: only the threshold of logger `id` changes. */
  function SetLevel(w: World, id: nat, level: Level): (r: World)
    requires Valid(w) && id < |w.arena|
    ensures Valid(r)
    ensures |r.arena| == |w.arena| && r.registry == w.registry && r.std == w.std
    ensures r.arena[id] == w.arena[id].(level := level)
    ensures forall k :: 0 <= k < |w.arena| && k != id ==> r.arena[k] == w.arena[k]
  {
    w.(arena := w.arena[id := w.arena[id].(level := level)])
  }

  /** After `SetLevel(l)` a gated call at `g` on that logger emits exactly
      when `g` is at most as verbose as `l`. */
  lemma SetLevelGates(w: World, id: nat, level: Level, g: Level, form: Form, text: string)
    requires Valid(w) && id < |w.arena|
    ensures Dispatch(SetLevel(w, id, level).arena[id], Call(Gated(g), form, text)).Some? <==> Rank(g) <= Rank(level)
  {
  }

  /*
   * Entries
   */

  /** The key `WithError` files an error under. */
  const ErrorKey := "error"

  /** A log entry: the module it belongs to, its fields with their values
      already rendered by `%+v`, and an optional raw JSON payload. */
  datatype Entry = Entry(moduleName: string, data: map<string, string>, jsonRaw: Option<string>)
  {
    /** A copy with one more field (a later value for the key wins). */
    function WithField(key: string, value: string): Entry
    {
      this.(data := data[key := value])
    }

    /** A copy with all of `fields` added (their values win). */
    function WithFields(fields: map<string, string>): Entry
    {
      this.(data := data + fields)
    }

    function WithError(err: string): Entry
    {
      WithField(ErrorKey, err)
    }

    function WithJsonRaw(bs: string): Entry
    {
      this.(jsonRaw := Some(bs))
    }
  }

  /** The empty entry a logger starts every builder call with. */
  function NewEntry(logger: Logger): (e: Entry)
    ensures e.moduleName == logger.moduleName && e.data == map[] && e.jsonRaw == None
  {
    Entry(logger.moduleName, map[], None)
  }

  /** The outcome of `json.Marshal`: the encoding, or the error's text. */
  datatype Marshalled = Encoded(json: string) | MarshalError(message: string)

  /** `Logger.WithField`. */
  function WithField(logger: Logger, key: string, value: string): (e: Entry)
    ensures e.moduleName == logger.moduleName && e.jsonRaw == None
    ensures e.data.Keys == {key} && e.data[key] == value
  {
    NewEntry(logger).WithField(key, value)
  }

  /** `Logger.WithFields`. */
  function WithFields(logger: Logger, fields: map<string, string>): (e: Entry)
    ensures e.moduleName == logger.moduleName && e.jsonRaw == None && e.data == fields
  {
    NewEntry(logger).WithFields(fields)
  }

  /** `Logger.WithError`: the error's text under `ErrorKey`. */
  function WithError(logger: Logger, err: string): (e: Entry)
    ensures e.moduleName == logger.moduleName && e.jsonRaw == None
    ensures e.data.Keys == {"error"} && e.data["error"] == err
  {
    NewEntry(logger).WithError(err)
  }

  /** `Logger.WithJsonRaw`. */
  function WithJsonRaw(logger: Logger, bs: string): (e: Entry)
    ensures e.moduleName == logger.moduleName && e.data == map[] && e.jsonRaw == Some(bs)
  {
    NewEntry(logger).WithJsonRaw(bs)
  }

  /** `Logger.WithStruct`: the encoding as the raw payload, or, when
      encoding fails, the error under `ErrorKey` and no payload. */
  function WithStruct(logger: Logger, marshalled: Marshalled): (e: Entry)
    ensures e.moduleName == logger.moduleName
    ensures marshalled.Encoded? ==> e.jsonRaw == Some(marshalled.json) && e.data == map[]
    ensures marshalled.MarshalError? ==>
      e.jsonRaw == None && e.data.Keys == {"error"} && e.data["error"] == marshalled.message
  {
    match marshalled
    case Encoded(bs) => WithJsonRaw(logger, bs)
    case MarshalError(err) => WithError(logger, err)
  }

  /*
   * Long text as numbered fields
   */

  /** `fmt.Sprintf("%s-%d", key, index)`. */
  function FieldKey(key: string, index: nat): string
  {
    key + "-" + Decimal(index)
  }

  /** Different indices give different keys. */
  lemma FieldKeyInjective(key: string, i: nat, j: nat)
    requires FieldKey(key, i) == FieldKey(key, j)
    ensures i == j
  {
    assert FieldKey(key, i)[|key| + 1..] == Decimal(i);
    assert FieldKey(key, j)[|key| + 1..] == Decimal(j);
    DecimalInjective(i, j);
  }

  /** The number of non-empty segments. */
  function NonEmptyCount(segments: seq<string>): nat
  {
    if |segments| == 0 then 0
    else NonEmptyCount(segments[..|segments| - 1]) + (if segments[|segments| - 1] != "" then 1 else 0)
  }

  /** The fields `key-i` for the non-empty segments, each under the index it
      has among all segments, built left to right. */
  function Numbered(key: string, segments: seq<string>): map<string, string>
  {
    if |segments| == 0 then map[]
    else
      var last := |segments| - 1;
      var fields := Numbered(key, segments[..last]);
      if segments[last] != "" then fields[FieldKey(key, last) := segments[last]] else fields
  }

  /** Every non-empty segment is a numbered field under its own index. */
  lemma {:induction false} NumberedHas(key: string, segments: seq<string>)
    ensures forall i :: 0 <= i < |segments| && segments[i] != "" ==>
      FieldKey(key, i) in Numbered(key, segments) && Numbered(key, segments)[FieldKey(key, i)] == segments[i]
  {
    if |segments| > 0 {
      var last := |segments| - 1;
      var init := segments[..last];
      NumberedHas(key, init);
      forall i | 0 <= i < last && segments[i] != ""
        ensures FieldKey(key, i) != FieldKey(key, last)
      {
        if FieldKey(key, i) == FieldKey(key, last) {
          FieldKeyInjective(key, i, last);
        }
      }
    }
  }

  /** Every numbered field comes from a non-empty segment. */
  lemma {:induction false} NumberedOnly(key: string, segments: seq<string>)
    ensures forall k :: k in Numbered(key, segments) ==>
      exists i :: 0 <= i < |segments| && segments[i] != "" && k == FieldKey(key, i)
  {
    if |segments| > 0 {
      var last := |segments| - 1;
      NumberedOnly(key, segments[..last]);
    }
  }

  /** Empty segments give no field but use up their index, so there is
      exactly one field per non-empty segment. */
  lemma {:induction false} NumberedSize(key: string, segments: seq<string>)
    ensures |Numbered(key, segments)| == NonEmptyCount(segments)
  {
    if |segments| > 0 {
      var last := |segments| - 1;
      var init := segments[..last];
      var fields := Numbered(key, init);
      NumberedSize(key, init);
      if segments[last] != "" {
        var k := FieldKey(key, last);
        assert k !in fields by {
          NumberedOnly(key, init);
          if k in fields {
            var j :| 0 <= j < last && init[j] != "" && k == FieldKey(key, j);
            FieldKeyInjective(key, j, last);
          }
        }
        assert fields[k := segments[last]].Keys == fields.Keys + {k};
      }
    }
  }

  /** The numbered fields of the segments, assembled by a loop over them as
      the logger does. */
  method IndexedFields(key: string, segments: seq<string>) returns (fields: map<string, string>)
    ensures forall i :: 0 <= i < |segments| && segments[i] != "" ==>
      FieldKey(key, i) in fields && fields[FieldKey(key, i)] == segments[i]
    ensures forall k :: k in fields ==> exists i :: 0 <= i < |segments| && segments[i] != "" && k == FieldKey(key, i)
    ensures |fields| == NonEmptyCount(segments)
  {
    fields := map[];
    var i := 0;
    while i < |segments|
      invariant 0 <= i <= |segments|
      invariant fields == Numbered(key, segments[..i])
    {
      assert segments[..i + 1][..i] == segments[..i];
      if segments[i] != "" {
        fields := fields[FieldKey(key, i) := segments[i]];
      }
      i := i + 1;
    }
    assert segments[..i] == segments;
    NumberedHas(key, segments);
    NumberedOnly(key, segments);
    NumberedSize(key, segments);
  }

  /** `Logger.WithLongString`: the text split on `sep`, one field per
      non-empty piece. No value contains a non-empty separator. */
  method WithLongString(logger: Logger, key: string, longStr: string, sep: string) returns (e: Entry)
    ensures e.moduleName == logger.moduleName && e.jsonRaw == None
    ensures forall i :: 0 <= i < |Split(longStr, sep)| && Split(longStr, sep)[i] != "" ==>
      FieldKey(key, i) in e.data && e.data[FieldKey(key, i)] == Split(longStr, sep)[i]
    ensures forall k :: k in e.data ==>
      exists i :: 0 <= i < |Split(longStr, sep)| && Split(longStr, sep)[i] != "" && k == FieldKey(key, i)
    ensures |e.data| == NonEmptyCount(Split(longStr, sep))
    ensures sep != "" ==> forall k :: k in e.data ==> !Contains(e.data[k], sep)
  {
    var segments := Split(longStr, sep);
    var fields := IndexedFields(key, segments);
    e := WithFields(logger, fields);
  }

  /** `Logger.WithMultiLines`: `WithLongString` on line breaks. */
  method WithMultiLines(logger: Logger, key: string, longStr: string) returns (e: Entry)
    ensures e.moduleName == logger.moduleName && e.jsonRaw == None
    ensures forall i :: 0 <= i < |Split(longStr, "\n")| && Split(longStr, "\n")[i] != "" ==>
      FieldKey(key, i) in e.data && e.data[FieldKey(key, i)] == Split(longStr, "\n")[i]
    ensures forall k :: k in e.data ==>
      exists i :: 0 <= i < |Split(longStr, "\n")| && Split(longStr, "\n")[i] != "" && k == FieldKey(key, i)
    ensures forall k :: k in e.data ==> '\n' !in e.data[k]
  {
    e := WithLongString(logger, key, longStr, "\n");
    forall k | k in e.data
      ensures '\n' !in e.data[k]
    {
      if '\n' in e.data[k] {
        var j :| 0 <= j < |e.data[k]| && e.data[k][j] == '\n';
        assert OccursAt(e.data[k], "\n", j);
      }
    }
  }

  /*
   * Reading a level off a log line
   */

  /** The seven-byte prefixes `PrefixStrCmp` recognises. */
  const PrefixTable: seq<(string, Level)> :=
    [("[INFO] ", Info), ("[WARN] ", Warn), ("[ERROR]", Error),
     ("[FATAL]", Fatal), ("[DEBUG]", Debug), ("[PANIC]", Panic)]

  /** `PrefixStrCmp.Parse`: the level of the line's first seven bytes, Debug
      when they are none of the table's; a shorter line panics. */
  function PrefixParse(s: string): (r: Result<Level>)
    ensures r.Err? <==> |s| < 7
    ensures r.Err? ==> r.error == SlicePanic
    ensures forall k :: 0 <= k < |PrefixTable| && |s| >= 7 && s[..7] == PrefixTable[k].0 ==> r == Ok(PrefixTable[k].1)
    ensures |s| >= 7 && (forall k :: 0 <= k < |PrefixTable| ==> s[..7] != PrefixTable[k].0) ==> r == Ok(Debug)
  {
    if |s| < 7 then Err(SlicePanic)
    else
      match s[..7]
      case "[INFO] " => assert PrefixTable[0].0 == "[INFO] "; Ok(Info)
      case "[WARN] " => assert PrefixTable[1].0 == "[WARN] "; Ok(Warn)
      case "[ERROR]" => assert PrefixTable[2].0 == "[ERROR]"; Ok(Error)
      case "[FATAL]" => assert PrefixTable[3].0 == "[FATAL]"; Ok(Fatal)
      case "[DEBUG]" => assert PrefixTable[4].0 == "[DEBUG]"; Ok(Debug)
      case "[PANIC]" => assert PrefixTable[5].0 == "[PANIC]"; Ok(Panic)
      case _ => Ok(Debug)
  }

  /** The bytes `\w` matches. */
  predicate WordChar(c: char)
  {
    'a' <= c <= 'z' || 'A' <= c <= 'Z' || '0' <= c <= '9' || c == '_'
  }

  /** The length of the longest run of word bytes starting at `from`. */
  function WordRun(s: string, from: nat): (n: nat)
    requires from <= |s|
    ensures from + n <= |s|
    ensures forall i :: from <= i < from + n ==> WordChar(s[i])
    ensures from + n < |s| ==> !WordChar(s[from + n])
    decreases |s| - from
  {
    if from < |s| && WordChar(s[from]) then 1 + WordRun(s, from + 1) else 0
  }

  /** `^\[\w+\]` matches the front of `s` with a word of `n` bytes. */
  predicate BracketMatch(s: string, n: nat)
  {
    1 <= n && n + 2 <= |s| && s[0] == '[' && s[n + 1] == ']' &&
    forall i :: 1 <= i <= n ==> WordChar(s[i])
  }

  /** A bracket match can only close where the word run ends. */
  lemma BracketMatchIsRun(s: string, n: nat)
    requires BracketMatch(s, n)
    ensures n == WordRun(s, 1)
  {
  }

  /** `RegexpParser.Parse`: the word between the brackets of a leading
      `[word]`, parsed as a level; with no such token the slice
      `[1:len(b)-1]` of the empty match panics. */
  function RegexpParse(s: string): (r: Result<Level>)
    ensures (forall n: nat :: !BracketMatch(s, n)) <==> r == Err(SlicePanic)
    ensures forall n: nat :: BracketMatch(s, n) ==> r == ParseLevel(s[1..n + 1])
  {
    if |s| == 0 || s[0] != '[' then Err(SlicePanic)
    else
      var n := WordRun(s, 1);
      assert forall m: nat :: BracketMatch(s, m) ==> m == n by {
        forall m: nat | BracketMatch(s, m)
          ensures m == n
        {
          BracketMatchIsRun(s, m);
        }
      }
      if 1 <= n && n + 1 < |s| && s[n + 1] == ']' then
        assert BracketMatch(s, n);
        ParseLevel(s[1..n + 1])
      else Err(SlicePanic)
  }

  /** A line that starts with a bracketed word parses as that word. */
  lemma RegexpParseBracketed(word: string, rest: string)
    requires |word| >= 1 && forall i :: 0 <= i < |word| ==> WordChar(word[i])
    ensures RegexpParse("[" + word + "]" + rest) == ParseLevel(word)
  {
    var s := "[" + word + "]" + rest;
    assert BracketMatch(s, |word|);
    assert s[1..|word| + 1] == word;
  }

  /** A prefix made of a bracketed word that names a level is read as that
      level, whatever follows. */
  lemma BracketedLevel(prefix: string, word: string, after: string, l: Level, rest: string)
    requires prefix == "[" + word + "]" + after
    requires |word| >= 1 && forall i :: 0 <= i < |word| ==> WordChar(word[i])
    requires ParseLevel(word) == Ok(l)
    ensures RegexpParse(prefix + rest) == Ok(l)
  {
    assert prefix + rest == "[" + word + "]" + (after + rest);
    RegexpParseBracketed(word, after + rest);
  }

  /* Each known prefix, read by the regular expression. */
  lemma InfoTagParses(rest: string)
    ensures RegexpParse("[INFO] " + rest) == Ok(Info)
  {
    assert "[INFO] " == "[" + "INFO" + "]" + " ";
    assert Lower("INFO") == "info";
    InfoWord();
    assert ParseLevel("INFO") == Ok(Info);
    BracketedLevel("[INFO] ", "INFO", " ", Info, rest);
  }

  lemma WarnTagParses(rest: string)
    ensures RegexpParse("[WARN] " + rest) == Ok(Warn)
  {
    assert "[WARN] " == "[" + "WARN" + "]" + " ";
    assert Lower("WARN") == "warn";
    assert ParseLevel("WARN") == Ok(Warn);
    BracketedLevel("[WARN] ", "WARN", " ", Warn, rest);
  }

  lemma ErrorTagParses(rest: string)
    ensures RegexpParse("[ERROR]" + rest) == Ok(Error)
  {
    assert "[ERROR]" == "[" + "ERROR" + "]" + "";
    assert Lower("ERROR") == "error";
    ErrorWord();
    assert ParseLevel("ERROR") == Ok(Error);
    BracketedLevel("[ERROR]", "ERROR", "", Error, rest);
  }

  lemma FatalTagParses(rest: string)
    ensures RegexpParse("[FATAL]" + rest) == Ok(Fatal)
  {
    assert "[FATAL]" == "[" + "FATAL" + "]" + "";
    assert Lower("FATAL") == "fatal";
    FatalWord();
    assert ParseLevel("FATAL") == Ok(Fatal);
    BracketedLevel("[FATAL]", "FATAL", "", Fatal, rest);
  }

  lemma DebugTagParses(rest: string)
    ensures RegexpParse("[DEBUG]" + rest) == Ok(Debug)
  {
    assert "[DEBUG]" == "[" + "DEBUG" + "]" + "";
    assert Lower("DEBUG") == "debug";
    DebugWord();
    assert ParseLevel("DEBUG") == Ok(Debug);
    BracketedLevel("[DEBUG]", "DEBUG", "", Debug, rest);
  }

  lemma PanicTagParses(rest: string)
    ensures RegexpParse("[PANIC]" + rest) == Ok(Panic)
  {
    assert "[PANIC]" == "[" + "PANIC" + "]" + "";
    assert Lower("PANIC") == "panic";
    PanicWord();
    assert ParseLevel("PANIC") == Ok(Panic);
    BracketedLevel("[PANIC]", "PANIC", "", Panic, rest);
  }

  /** The two parsers agree on every line that starts with one of the
      prefixes `PrefixStrCmp` knows. */
  lemma ParsersAgree(s: string, k: nat)
    requires k < |PrefixTable| && |s| >= 7 && s[..7] == PrefixTable[k].0
    ensures RegexpParse(s) == PrefixParse(s) == Ok(PrefixTable[k].1)
  {
    var rest := s[7..];
    assert s == s[..7] + rest;
    match k
    case 0 => InfoTagParses(rest);
    case 1 => WarnTagParses(rest);
    case 2 => ErrorTagParses(rest);
    case 3 => FatalTagParses(rest);
    case 4 => DebugTagParses(rest);
    case 5 => PanicTagParses(rest);
  }
}

=== FILE: strings.dfy ===
/** The string operations of Go's standard library that the package relies
    on, over byte strings: `strings.Split`, `strings.Join`, decimal
    formatting of an index, left-justified padding, and the 128-byte cut the
    renderers apply to field values. A `char` stands for one byte. */
module Strings {
  import opened Wrappers

  /** `sep` occurs in `s` starting at byte `i`. */
  predicate OccursAt(s: string, sep: string, i: nat)
  {
    i + |sep| <= |s| && s[i..i + |sep|] == sep
  }

  predicate Contains(s: string, sep: string)
  {
    exists i: nat | i <= |s| :: OccursAt(s, sep, i)
  }

  /** The first occurrence of `sep` in `s` at or after `from`. */
  function IndexFrom(s: string, sep: string, from: nat): (r: Option<nat>)
    requires |sep| > 0
    ensures r.Some? ==> from <= r.value && OccursAt(s, sep, r.value)
    ensures r.Some? ==> forall j: nat :: from <= j < r.value ==> !OccursAt(s, sep, j)
    ensures r.None? ==> forall j: nat :: from <= j ==> !OccursAt(s, sep, j)
    decreases |s| - from
  {
    if from + |sep| > |s| then None
    else if OccursAt(s, sep, from) then Some(from)
    else IndexFrom(s, sep, from + 1)
  }

  /** `strings.Index`: the first occurrence of a non-empty separator. */
  function IndexOf(s: string, sep: string): (r: Option<nat>)
    requires |sep| > 0
    ensures r.Some? ==> OccursAt(s, sep, r.value) && forall j: nat :: j < r.value ==> !OccursAt(s, sep, j)
    ensures r.None? <==> !Contains(s, sep)
  {
    IndexFrom(s, sep, 0)
  }

  /** A one-byte separator that `pre` does not contain is first found
      right after `pre`. */
  lemma IndexOfFirstSeparator(pre: string, c: char, post: string)
    requires c !in pre
    ensures IndexOf(pre + [c] + post, [c]) == Some(|pre|)
    ensures (pre + [c] + post)[..|pre|] == pre && (pre + [c] + post)[|pre| + 1..] == post
  {
    var t := pre + [c] + post;
    assert OccursAt(t, [c], |pre|);
    forall j: nat | j < |pre|
      ensures !OccursAt(t, [c], j)
    {
      assert t[j] == pre[j];
    }
  }

  /** `strings.Split` with a non-empty separator: the text between
      successive leftmost, non-overlapping occurrences of `sep`. */
  function SplitOn(s: string, sep: string): (r: seq<string>)
    requires |sep| > 0
    ensures |r| >= 1
    ensures forall k :: 0 <= k < |r| ==> !Contains(r[k], sep)
    ensures IndexOf(s, sep).None? ==> r == [s]
    ensures IndexOf(s, sep).Some? ==> |r| >= 2 && r[0] == s[..IndexOf(s, sep).value]
    decreases |s|
  {
    match IndexOf(s, sep)
    case None => [s]
    case Some(i) =>
      var head := s[..i];
      assert !Contains(head, sep) by {
        forall j: nat | OccursAt(head, sep, j)
          ensures false
        {
          assert s[j..j + |sep|] == head[j..j + |sep|];
          assert OccursAt(s, sep, j);
        }
      }
      [head] + SplitOn(s[i + |sep|..], sep)
  }

  /** Splitting cuts at the leftmost occurrence of the separator and goes on
      splitting what follows it; a text without the separator is one piece. */
  lemma SplitOnLeftmost(s: string, sep: string)
    requires |sep| > 0
    ensures IndexOf(s, sep).None? ==> SplitOn(s, sep) == [s]
    ensures IndexOf(s, sep).Some? ==>
      var i := IndexOf(s, sep).value;
      SplitOn(s, sep) == [s[..i]] + SplitOn(s[i + |sep|..], sep)
  {
  }

  /** `strings.Split`: an empty separator splits after every byte (and an
      empty string into no pieces at all). */
  function Split(s: string, sep: string): (r: seq<string>)
    ensures sep != [] ==> |r| >= 1 && r == SplitOn(s, sep)
    ensures sep == [] ==> |r| == |s| && forall k :: 0 <= k < |s| ==> r[k] == [s[k]]
  {
    if sep == [] then seq(|s|, k requires 0 <= k < |s| => [s[k]]) else SplitOn(s, sep)
  }

  /** `strings.Join`. */
  function Join(parts: seq<string>, sep: string): string
  {
    if |parts| == 0 then ""
    else if |parts| == 1 then parts[0]
    else parts[0] + sep + Join(parts[1..], sep)
  }

  /** Joining the pieces of a split with the same separator gives back the
      original text. */
  lemma {:induction false} JoinSplit(s: string, sep: string)
    requires |sep| > 0
    ensures Join(SplitOn(s, sep), sep) == s
    decreases |s|
  {
    match IndexOf(s, sep)
    case None =>
    case Some(i) =>
      var rest := SplitOn(s[i + |sep|..], sep);
      JoinSplit(s[i + |sep|..], sep);
      assert SplitOn(s, sep) == [s[..i]] + rest;
      assert ([s[..i]] + rest)[1..] == rest;
      assert s == s[..i] + s[i..i + |sep|] + s[i + |sep|..];
  }

  /** Splitting a join on a one-byte separator that none of the pieces
      contains gives back the pieces. */
  lemma {:induction false} SplitJoin(parts: seq<string>, sep: string)
    requires |parts| >= 1 && |sep| == 1
    requires forall k :: 0 <= k < |parts| ==> sep[0] !in parts[k]
    ensures SplitOn(Join(parts, sep), sep) == parts
  {
    var p := parts[0];
    assert !Contains(p, sep) by {
      forall j: nat | OccursAt(p, sep, j)
        ensures false
      {
      }
    }
    if |parts| > 1 {
      var rest := Join(parts[1..], sep);
      var s := p + sep + rest;
      assert Join(parts, sep) == s;
      assert OccursAt(s, sep, |p|);
      forall j: nat | j < |p|
        ensures !OccursAt(s, sep, j)
      {
        assert s[j] == p[j];
      }
      assert IndexOf(s, sep) == Some(|p|);
      assert s[..|p|] == p;
      assert s[|p| + 1..] == rest;
      SplitOnLeftmost(s, sep);
      SplitJoin(parts[1..], sep);
      assert parts == [p] + parts[1..];
    } else {
      assert IndexOf(p, sep).None?;
    }
  }

  function DigitChar(d: nat): char
    requires d < 10
  {
    ('0' as int + d) as char
  }

  /** `%d` of a non-negative number. */
  function Decimal(n: nat): (r: string)
    ensures 1 <= |r|
    ensures n >= 10 ==> 2 <= |r|
    ensures forall i :: 0 <= i < |r| ==> '0' <= r[i] <= '9'
  {
    if n < 10 then [DigitChar(n)] else Decimal(n / 10) + [DigitChar(n % 10)]
  }

  /** Different numbers print differently. */
  lemma {:induction false} DecimalInjective(a: nat, b: nat)
    requires Decimal(a) == Decimal(b)
    ensures a == b
  {
    if a >= 10 && b >= 10 {
      var da, db := Decimal(a), Decimal(b);
      assert da[|da| - 1] == DigitChar(a % 10);
      assert db[|db| - 1] == DigitChar(b % 10);
      assert da[..|da| - 1] == Decimal(a / 10);
      assert db[..|db| - 1] == Decimal(b / 10);
      DecimalInjective(a / 10, b / 10);
    }
  }

  /** `%-<width>s`: left-justified, padded with spaces to `width` bytes. */
  function PadRight(s: string, width: nat): (r: string)
    ensures |r| == if |s| >= width then |s| else width
    ensures r[..|s|] == s
    ensures forall i :: |s| <= i < |r| ==> r[i] == ' '
  {
    if |s| >= width then s else s + seq(width - |s|, _ => ' ')
  }

  /** The widest field value the renderers print unabridged. */
  const MaxValueLength: nat := 128

  /** A field value longer than 128 bytes keeps its first 128 bytes followed
      by "..."; shorter values are kept whole. */
  function Truncate(value: string): (r: string)
    ensures |value| <= MaxValueLength ==> r == value
    ensures |value| > MaxValueLength ==> |r| == MaxValueLength + 3
    ensures |value| > MaxValueLength ==> r[..MaxValueLength] == value[..MaxValueLength] && r[MaxValueLength..] == "..."
  {
    if |value| > MaxValueLength then value[..MaxValueLength] + "..." else value
  }

  /** The cut is bounded and idempotent: a cut value is cut to itself. */
  lemma TruncateIdempotent(value: string)
    ensures |Truncate(value)| <= MaxValueLength + 3
    ensures Truncate(Truncate(value)) == Truncate(value)
  {
    if |value| > MaxValueLength {
      var t := Truncate(value);
      assert t[..MaxValueLength] == value[..MaxValueLength];
    }
  }
}

/** Byte-wise lexicographic order of strings (Go's `<` on strings, which
    `sort.Strings` uses) and sorting by insertion. */
module Sorting {

  /** `a <= b` in Go's string order. */
  predicate Le(a: string, b: string)
    decreases |a|
  {
    if |a| == 0 then true
    else if |b| == 0 then false
    else if a[0] != b[0] then a[0] < b[0]
    else Le(a[1..], b[1..])
  }

  lemma LeReflexive(a: string)
    ensures Le(a, a)
    decreases |a|
  {
    if |a| > 0 {
      LeReflexive(a[1..]);
    }
  }

  lemma LeTotal(a: string, b: string)
    ensures Le(a, b) || Le(b, a)
    decreases |a|
  {
    if |a| > 0 && |b| > 0 && a[0] == b[0] {
      LeTotal(a[1..], b[1..]);
    }
  }

  lemma LeAntisymmetric(a: string, b: string)
    requires Le(a, b) && Le(b, a)
    ensures a == b
    decreases |a|
  {
    if |a| > 0 {
      LeAntisymmetric(a[1..], b[1..]);
      assert a == [a[0]] + a[1..];
      assert b == [b[0]] + b[1..];
    }
  }

  lemma LeTransitive(a: string, b: string, c: string)
    requires Le(a, b) && Le(b, c)
    ensures Le(a, c)
    decreases |a|
  {
    if |a| > 0 && |b| > 0 && |c| > 0 && a[0] == b[0] == c[0] {
      LeTransitive(a[1..], b[1..], c[1..]);
    }
  }

  predicate Sorted(s: seq<string>)
  {
    forall i, j :: 0 <= i < j < |s| ==> Le(s[i], s[j])
  }

  predicate Distinct<T(==)>(s: seq<T>)
  {
    forall i, j :: 0 <= i < j < |s| ==> s[i] != s[j]
  }

  /** `order` lists every element of `keys` exactly once: what ranging over
      a Go map yields, in an order the language leaves unspecified. */
  predicate Enumerates<T(==)>(order: seq<T>, keys: set<T>)
  {
    Distinct(order) && (forall x :: x in order ==> x in keys) && (forall x :: x in keys ==> x in order)
  }

  /** Insert `x` into a sorted sequence. */
  function Insert(x: string, s: seq<string>): (r: seq<string>)
    requires Sorted(s)
    ensures Sorted(r)
    ensures multiset(r) == multiset(s) + multiset{x}
  {
    if |s| == 0 then [x]
    else if Le(x, s[0]) then
      assert forall j :: 0 <= j < |s| ==> Le(x, s[j]) by {
        forall j | 0 <= j < |s| ensures Le(x, s[j]) {
          if j > 0 { LeTransitive(x, s[0], s[j]); }
        }
      }
      [x] + s
    else
      var t := Insert(x, s[1..]);
      LeTotal(x, s[0]);
      assert s == [s[0]] + s[1..];
      assert forall y :: y in multiset(t) ==> Le(s[0], y) by {
        forall y | y in multiset(t) ensures Le(s[0], y) {
          assert y in multiset(s[1..]) + multiset{x};
          if y != x {
            assert y in s[1..];
          }
        }
      }
      assert forall j :: 0 <= j < |t| ==> Le(s[0], t[j]) by {
        forall j | 0 <= j < |t| ensures Le(s[0], t[j]) {
          assert t[j] in multiset(t);
        }
      }
      [s[0]] + t
  }

  /** `sort.Strings`: a sorted permutation of its input. */
  function Sort(s: seq<string>): (r: seq<string>)
    ensures Sorted(r)
    ensures multiset(r) == multiset(s)
  {
    if |s| == 0 then []
    else
      assert s == [s[0]] + s[1..];
      Insert(s[0], Sort(s[1..]))
  }

  /** Two sorted arrangements of the same elements start alike. */
  lemma SortedHeads(a: seq<string>, b: seq<string>)
    requires Sorted(a) && Sorted(b) && |a| > 0
    requires multiset(a) == multiset(b)
    ensures |b| > 0 && a[0] == b[0]
  {
    assert |b| == |multiset(b)| == |a|;
    assert a[0] in multiset(b);
    assert b[0] in multiset(a);
    var i :| 0 <= i < |b| && b[i] == a[0];
    var j :| 0 <= j < |a| && a[j] == b[0];
    LeReflexive(a[0]);
    assert Le(b[0], a[0]) by { if i > 0 { assert Le(b[0], b[i]); } }
    assert Le(a[0], b[0]) by { if j > 0 { assert Le(a[0], a[j]); } }
    LeAntisymmetric(a[0], b[0]);
  }

  /** The tail of a sequence holds its elements less the head. */
  lemma TailMultiset(a: seq<string>)
    requires |a| > 0
    ensures multiset(a[1..]) == multiset(a) - multiset{a[0]}
  {
    assert a == [a[0]] + a[1..];
  }

  /** Two sorted arrangements of the same elements are the same sequence. */
  lemma {:induction false} SortedUnique(a: seq<string>, b: seq<string>)
    requires Sorted(a) && Sorted(b)
    requires multiset(a) == multiset(b)
    ensures a == b
  {
    if |a| > 0 {
      SortedHeads(a, b);
      TailMultiset(a);
      TailMultiset(b);
      SortedUnique(a[1..], b[1..]);
      assert a == [a[0]] + a[1..];
      assert b == [b[0]] + b[1..];
    } else {
      assert |b| == |multiset(b)| == 0;
    }
  }

  /** A duplicate-free sequence holds each of its elements exactly once. */
  lemma {:induction false} DistinctMultiplicity<T>(s: seq<T>, x: T)
    requires Distinct(s)
    ensures multiset(s)[x] == if x in s then 1 else 0
  {
    if |s| > 0 {
      assert s == [s[0]] + s[1..];
      DistinctMultiplicity(s[1..], x);
    }
  }

  /** Two enumerations of the same set hold the same elements, counted
      with multiplicity. */
  lemma EnumerationsSameMultiset<T>(o1: seq<T>, o2: seq<T>, keys: set<T>)
    requires Enumerates(o1, keys) && Enumerates(o2, keys)
    ensures multiset(o1) == multiset(o2)
  {
    forall x
      ensures multiset(o1)[x] == multiset(o2)[x]
    {
      DistinctMultiplicity(o1, x);
      DistinctMultiplicity(o2, x);
    }
  }

  /** Sorting an enumeration of a set does not depend on the enumeration:
      two renders of the same fields list the keys identically. */
  lemma SortIgnoresOrder(o1: seq<string>, o2: seq<string>, keys: set<string>)
    requires Enumerates(o1, keys) && Enumerates(o2, keys)
    ensures Sort(o1) == Sort(o2)
  {
    EnumerationsSameMultiset(o1, o2, keys);
    SortedUnique(Sort(o1), Sort(o2));
  }
}

=== FILE: textformatter.dfy ===
/** The reference text renderer (`TextFormatter`): which keys it prints and
    in which order, when it colours, how it cuts long values, how it quotes,
    and the order of the parts of one record. The clock, the terminal probe,
    `runtime.Caller`, `Time.Format` and `json.Indent` are inputs. */
module TextFormat {
  import opened Wrappers
  import opened Levels
  import opened Strings
  import opened Sorting

  /** No colour: also what a trace chain gets when the palette has none left. */
  const NoColor: nat := 0
  const Red: nat := 31
  const Yellow: nat := 33
  const Blue: nat := 34
  const Gray: nat := 37

  /** The renderer's configuration flags; `DefaultConfig` is `new(TextFormatter)`. */
  datatype Config = Config(
    forceColors: bool,
    disableColors: bool,
    disableTimestamp: bool,
    fullTimestamp: bool,
    timestampFormat: string,
    disableSorting: bool)

  const DefaultConfig := Config(false, false, false, false, "", false)

  /** The layout used when none is configured (time.RFC3339). */
  const DefaultTimestampFormat := "2006-01-02T15:04:05Z07:00"

  /** What the renderer reads of an entry: its fields with their values
      already printed by `%+v`, its message and level, and the pretty-printed
      raw JSON payload when one is attached. */
  datatype Input = Input(data: map<string, string>, message: string, level: Level, prettyJson: Option<string>)

  /** Facts about the process the renderer consults: whether standard error
      is a terminal, and whether the platform is Windows. */
  datatype Platform = Platform(isTerminal: bool, isWindows: bool)

  /** A sequence is a permutation of a duplicate-free one: so it is
      duplicate-free too. */
  lemma PermutationKeepsDistinct(a: seq<string>, b: seq<string>)
    requires Distinct(a) && multiset(a) == multiset(b)
    ensures Distinct(b)
  {
    forall i, j | 0 <= i < j < |b|
      ensures b[i] != b[j]
    {
      if b[i] == b[j] {
        assert b == b[..j] + b[j..];
        assert b[i] in b[..j];
        assert multiset(b)[b[i]] >= 2 by {
          assert multiset(b) == multiset(b[..j]) + multiset(b[j..]);
          assert b[j] in multiset(b[j..]);
        }
        DistinctMultiplicity(a, b[i]);
      }
    }
  }

  /** The keys in the order the record lists them: the map's iteration order
      (`order`), sorted unless sorting is disabled. */
  function KeyList(data: map<string, string>, disableSorting: bool, order: seq<string>): (keys: seq<string>)
    requires Enumerates(order, data.Keys)
    ensures Enumerates(keys, data.Keys)
    ensures forall k :: k in keys ==> k in data
    ensures |keys| == |data|
    ensures !disableSorting ==> Sorted(keys)
    ensures disableSorting ==> keys == order
  {
    var keys := if disableSorting then order else Sort(order);
    PermutationKeepsDistinct(order, keys);
    assert forall x :: x in keys <==> x in multiset(order);
    assert |keys| == |data| by { EnumerationSize(keys, data.Keys); }
    keys
  }

  /** An enumeration of a set is as long as the set is large. */
  lemma {:induction false} EnumerationSize(s: seq<string>, keys: set<string>)
    requires Enumerates(s, keys)
    ensures |s| == |keys|
  {
    if |s| > 0 {
      var rest := s[1..];
      assert Enumerates(rest, keys - {s[0]}) by {
        forall x | x in rest ensures x in keys - {s[0]} {
          var k :| 0 <= k < |rest| && rest[k] == x;
          assert s[k + 1] == x;
        }
      }
      EnumerationSize(rest, keys - {s[0]});
    } else {
      assert keys == {} by {
        forall x | x in keys ensures false { }
      }
    }
  }

  /** Whether a record is coloured: forced or on a non-Windows terminal,
      and never when colours are disabled. */
  function IsColored(cfg: Config, platform: Platform): (colored: bool)
    ensures cfg.disableColors ==> !colored
    ensures !cfg.disableColors && cfg.forceColors ==> colored
    ensures !cfg.disableColors && !cfg.forceColors ==> (colored <==> platform.isTerminal && !platform.isWindows)
  {
    var isColorTerminal := platform.isTerminal && !platform.isWindows;
    (cfg.forceColors || isColorTerminal) && !cfg.disableColors
  }

  /** The timestamp layout in effect. */
  function TimestampLayout(cfg: Config): (layout: string)
    ensures cfg.timestampFormat == "" ==> layout == DefaultTimestampFormat
    ensures cfg.timestampFormat != "" ==> layout == cfg.timestampFormat
    ensures layout != ""
  {
    if cfg.timestampFormat == "" then DefaultTimestampFormat else cfg.timestampFormat
  }

  /** The characters that may be written unquoted. */
  predicate PlainChar(c: char)
  {
    ('a' <= c <= 'z') || ('A' <= c <= 'Z') || ('0' <= c <= '9') || c == '-' || c == '.'
  }

  /** `needsQuoting`: some character lies outside `[a-zA-Z0-9.-]`. */
  function NeedsQuoting(text: string): (r: bool)
    ensures r <==> exists i :: 0 <= i < |text| && !PlainChar(text[i])
  {
    if text == [] then false
    else if !PlainChar(text[0]) then true
    else
      assert forall i :: 1 <= i < |text| ==> text[i] == text[1..][i - 1];
      NeedsQuoting(text[1..])
  }

  /** A piece of rendered output: bytes written as they are, or the Go
      double-quoted (`%q`) form of a text. */
  datatype Chunk = Raw(text: string) | Quoted(text: string)

  /** A value handed to `appendKeyValue`: a string, an error (by its
      message), or anything else (by its `fmt.Fprint` form). */
  datatype KeyValue = StringValue(text: string) | ErrorValue(text: string) | OtherValue(text: string)

  /** `appendKeyValue`: `key=` when the key is non-empty, then the value,
      quoted when it is a string or error that needs quoting, then a space. */
  function AppendKeyValue(key: string, value: KeyValue): (r: seq<Chunk>)
    ensures |r| == if key == "" then 2 else 3
    ensures key != "" ==> r[0] == Raw(key + "=")
    ensures r[|r| - 2].text == value.text
    ensures r[|r| - 2].Quoted? <==> !value.OtherValue? && NeedsQuoting(value.text)
    ensures r[|r| - 1] == Raw(" ")
  {
    var shown :=
      match value
      case StringValue(s) => if !NeedsQuoting(s) then Raw(s) else Quoted(s)
      case ErrorValue(msg) => if !NeedsQuoting(msg) then Raw(msg) else Quoted(msg)
      case OtherValue(p) => Raw(p);
    (if |key| > 0 then [Raw(key + "=")] else []) + [shown, Raw(" ")]
  }

  predicate AllRaw(cs: seq<Chunk>)
  {
    forall i :: 0 <= i < |cs| ==> cs[i].Raw?
  }

  /** The bytes of output made only of raw pieces. */
  function Flatten(cs: seq<Chunk>): string
    requires AllRaw(cs)
  {
    if cs == [] then "" else cs[0].text + Flatten(cs[1..])
  }

  /** How a reader of the output splits one `key=value` token: at its first
      '='. */
  function ReadPair(token: string): Option<(string, string)>
  {
    match IndexOf(token, "=")
    case None => None
    case Some(i) => Some((token[..i], token[i + 1..]))
  }

  /** A pair whose value needs no quoting is written as `key=value ` and a
      reader splitting that token at '=' gets the key and value back. */
  lemma KeyValueRoundTrip(key: string, value: string)
    requires key != "" && '=' !in key
    requires !NeedsQuoting(value)
    ensures AllRaw(AppendKeyValue(key, StringValue(value)))
    ensures Flatten(AppendKeyValue(key, StringValue(value))) == key + "=" + value + " "
    ensures ReadPair(key + "=" + value) == Some((key, value))
    ensures ' ' !in value
  {
    var cs := AppendKeyValue(key, StringValue(value));
    assert cs == [Raw(key + "="), Raw(value), Raw(" ")];
    assert cs[1..] == [Raw(value), Raw(" ")];
    assert cs[1..][1..] == [Raw(" ")];
    assert Flatten([Raw(" ")]) == " " + Flatten([]);
    IndexOfFirstSeparator(key, '=', value);
  }

  /** The colour of a level's record: red for Error and anything more
      severe, yellow for Warn, blue for Info, gray for Debug. */
  function LevelColor(l: Level): (c: nat)
    ensures c == Red <==> Rank(l) <= Rank(Error)
    ensures c == Yellow <==> l == Warn
    ensures c == Blue <==> l == Info
    ensures c == Gray <==> l == Debug
  {
    match l
    case Debug => Gray
    case Warn => Yellow
    case Error | Fatal | Panic => Red
    case _ => Blue
  }

  /** The 4-character tag of a level: the first four characters of its
      upper-cased name, which spell DEBU, INFO, WARN, ERRO, FATA or PANI and
      tell the levels apart. */
  function LevelTag(l: Level): (tag: string)
    ensures |tag| == 4
    ensures tag == SpelledTag(l)
    ensures forall m :: m != l ==> SpelledTag(m) != tag
  {
    var t := Upper(Name(l))[..4];
    assert t[0] == UpperChar(Name(l)[0]) && t[1] == UpperChar(Name(l)[1]);
    assert t[2] == UpperChar(Name(l)[2]) && t[3] == UpperChar(Name(l)[3]);
    t
  }

  /** The tag of each level, spelled out. */
  function SpelledTag(l: Level): string
  {
    match l
    case Debug => "DEBU"
    case Info => "INFO"
    case Warn => "WARN"
    case Error => "ERRO"
    case Fatal => "FATA"
    case Panic => "PANI"
  }

  /** Every level gets its own tag. */
  lemma LevelTags(a: Level, b: Level)
    ensures LevelTag(a) == LevelTag(b) ==> a == b
  {
  }

  /** The basename `formatShortFile` reports: the text after the last '/'
      found scanning down from the end to index 1. A '/' only at index 0,
      or none at all, gives "". */
  method ShortFile(file: string) returns (short: string)
    ensures (exists i :: 1 <= i < |file| && file[i] == '/') ==>
      exists i :: 1 <= i < |file| && file[i] == '/' && short == file[i + 1..] &&
        forall k :: i < k < |file| ==> file[k] != '/'
    ensures (forall i :: 1 <= i < |file| ==> file[i] != '/') ==> short == ""
    ensures '/' !in short
  {
    short := "";
    var i := |file| - 1;
    while i > 0
      invariant -1 <= i < |file|
      invariant forall k :: i < k < |file| ==> file[k] != '/'
      decreases i
    {
      if file[i] == '/' {
        short := file[i + 1..];
        assert forall k :: 0 <= k < |short| ==> short[k] == file[i + 1 + k];
        return;
      }
      i := i - 1;
    }
  }

  /** `formatShortFile`: "???:0" when the caller is unknown, otherwise the
      basename, a colon and the line number left-justified to 3 bytes. */
  method FormatShortFile(callerKnown: bool, file: string, line: nat) returns (info: string)
    ensures !callerKnown ==> info == "???:0"
    ensures callerKnown ==> exists short :: '/' !in short && info == short + ":" + PadRight(Decimal(line), 3)
    ensures callerKnown && (exists i :: 1 <= i < |file| && file[i] == '/') ==>
      exists i :: 1 <= i < |file| && file[i] == '/' && (forall k :: i < k < |file| ==> file[k] != '/') &&
        info == file[i + 1..] + ":" + PadRight(Decimal(line), 3)
    ensures callerKnown && (forall i :: 1 <= i < |file| ==> file[i] != '/') ==> info == ":" + PadRight(Decimal(line), 3)
  {
    if !callerKnown {
      return "???:0";
    }
    var short := ShortFile(file);
    info := short + ":" + PadRight(Decimal(line), 3);
  }

  /** The time shown in a coloured header: whole seconds since the process
      started, or the entry's time formatted with a layout. */
  datatype Stamp = Elapsed(seconds: nat) | Clock(layout: string)

  /** One part of a rendered record, in the order written. */
  datatype Part =
    | TimePair(layout: string)                    // `time=` and the entry's time formatted with `layout`
    | Pair(key: string, value: string)            // appendKeyValue with a string value
    | FieldLine(key: string, value: string)       // a plain `- key = value` line
    | Header(color: nat, fileInfo: string, tag: string, stamp: Stamp, message: string)
    | ColorFieldLine(key: string, value: string)  // a gray `- key = value` line
    | Json(text: string)                          // the pretty-printed raw JSON payload
    | Newline                                     // the record's final '\n'

  /** The field lines for `keys`, values cut to 128 bytes. */
  function FieldLines(keys: seq<string>, data: map<string, string>, colored: bool): (r: seq<Part>)
    requires forall k :: k in keys ==> k in data
    ensures |r| == |keys|
    ensures forall j :: 0 <= j < |r| ==>
      r[j] == if colored then ColorFieldLine(keys[j], Truncate(data[keys[j]])) else FieldLine(keys[j], Truncate(data[keys[j]]))
  {
    if keys == [] then []
    else
      var line := if colored then ColorFieldLine(keys[0], Truncate(data[keys[0]])) else FieldLine(keys[0], Truncate(data[keys[0]]));
      [line] + FieldLines(keys[1..], data, colored)
  }

  function JsonPart(pretty: Option<string>): seq<Part>
  {
    match pretty
    case None => []
    case Some(t) => [Json(t)]
  }

  /** The key/value pair of a field line, if the part is one. */
  function LineOf(p: Part): seq<(string, string)>
  {
    match p
    case FieldLine(k, v) => [(k, v)]
    case ColorFieldLine(k, v) => [(k, v)]
    case _ => []
  }

  /** The key/value pairs of the field lines of a record, in order. */
  function LinesOf(parts: seq<Part>): seq<(string, string)>
  {
    if parts == [] then [] else LineOf(parts[0]) + LinesOf(parts[1..])
  }

  lemma {:induction false} LinesOfAppend(a: seq<Part>, b: seq<Part>)
    ensures LinesOf(a + b) == LinesOf(a) + LinesOf(b)
  {
    if a != [] {
      assert (a + b)[0] == a[0];
      assert (a + b)[1..] == a[1..] + b;
      LinesOfAppend(a[1..], b);
    } else {
      assert a + b == b;
    }
  }

  /** Parts with no field line hold no key/value lines. */
  lemma LinesOfNone(parts: seq<Part>)
    requires forall i :: 0 <= i < |parts| ==> !parts[i].FieldLine? && !parts[i].ColorFieldLine?
    ensures LinesOf(parts) == []
  {
    if parts != [] {
      LinesOfNone(parts[1..]);
    }
  }

  lemma {:induction false} LinesOfFieldLines(keys: seq<string>, data: map<string, string>, colored: bool)
    requires forall k :: k in keys ==> k in data
    ensures LinesOf(FieldLines(keys, data, colored)) == seq(|keys|, j requires 0 <= j < |keys| => (keys[j], Truncate(data[keys[j]])))
  {
    if keys != [] {
      LinesOfFieldLines(keys[1..], data, colored);
    }
  }

  /** The parts before the field lines: the coloured header line, or the
      plain `time=`, file information, `level=` and `msg=` pairs. */
  function Head(cfg: Config, platform: Platform, input: Input, fileInfo: string,
                elapsed: nat): (head: seq<Part>)
    ensures forall i :: 0 <= i < |head| ==> !head[i].FieldLine? && !head[i].ColorFieldLine? && !head[i].Newline?
    ensures IsColored(cfg, platform) ==>
      && |head| == 1 && head[0].Header?
      && head[0].color == LevelColor(input.level) && head[0].tag == LevelTag(input.level)
      && head[0].fileInfo == fileInfo && head[0].message == input.message
      && (cfg.fullTimestamp <==> head[0].stamp == Clock(TimestampLayout(cfg)))
      && (!cfg.fullTimestamp <==> head[0].stamp == Elapsed(elapsed))
    ensures !IsColored(cfg, platform) ==>
      var t := if cfg.disableTimestamp then 0 else 1;
      && |head| == t + 2 + (if input.message == "" then 0 else 1)
      && (t == 1 ==> head[0] == TimePair(TimestampLayout(cfg)))
      && head[t] == Pair("", fileInfo)
      && head[t + 1] == Pair("level", Name(input.level))
      && (input.message != "" ==> head[t + 2] == Pair("msg", input.message))
      && (forall i :: t <= i < |head| ==> head[i].Pair?)
  {
    var layout := TimestampLayout(cfg);
    if IsColored(cfg, platform) then
      var stamp := if !cfg.fullTimestamp then Elapsed(elapsed) else Clock(layout);
      [Header(LevelColor(input.level), fileInfo, LevelTag(input.level), stamp, input.message)]
    else
      (if !cfg.disableTimestamp then [TimePair(layout)] else [])
      + [Pair("", fileInfo), Pair("level", Name(input.level))]
      + (if input.message != "" then [Pair("msg", input.message)] else [])
  }

  /** A record made of a head, one line per key, an optional JSON part and
      the final newline. */
  function Assemble(head: seq<Part>, keys: seq<string>, data: map<string, string>, colored: bool,
                    json: seq<Part>): seq<Part>
    requires forall k :: k in keys ==> k in data
  {
    head + (FieldLines(keys, data, colored) + json + [Newline])
  }

  /** `parts` is `head`, then `lines`, then the JSON part when a payload is
      attached, then the final newline. */
  predicate Laid(parts: seq<Part>, head: seq<Part>, lines: seq<Part>, pretty: Option<string>)
  {
    && |parts| == |head| + |lines| + (if pretty.Some? then 1 else 0) + 1
    && parts[..|head|] == head
    && parts[|head|..|head| + |lines|] == lines
    && (pretty.Some? ==> parts[|parts| - 2] == Json(pretty.value))
    && parts[|parts| - 1] == Newline
  }

  /** `Format`: the parts of one record. `order` is the map's iteration
      order, `fileInfo` is what `formatShortFile` returned, and `elapsed` is
      the whole seconds since the process started. */
  function Format(cfg: Config, platform: Platform, input: Input, order: seq<string>,
                  fileInfo: string, elapsed: nat): (parts: seq<Part>)
    requires Enumerates(order, input.data.Keys)
    ensures |parts| == |Head(cfg, platform, input, fileInfo, elapsed)| + |input.data|
                       + (if input.prettyJson.Some? then 1 else 0) + 1
    ensures Laid(parts, Head(cfg, platform, input, fileInfo, elapsed),
                 FieldLines(KeyList(input.data, cfg.disableSorting, order), input.data, IsColored(cfg, platform)),
                 input.prettyJson)
  {
    var head := Head(cfg, platform, input, fileInfo, elapsed);
    var keys := KeyList(input.data, cfg.disableSorting, order);
    var colored := IsColored(cfg, platform);
    AssembleSlices(head, keys, input.data, colored, input.prettyJson);
    Assemble(head, keys, input.data, colored, JsonPart(input.prettyJson))
  }

  /** Where each kind of part sits in an assembled record. */
  lemma AssembleSlices(head: seq<Part>, keys: seq<string>, data: map<string, string>, colored: bool,
                       pretty: Option<string>)
    requires forall k :: k in keys ==> k in data
    ensures Laid(Assemble(head, keys, data, colored, JsonPart(pretty)), head, FieldLines(keys, data, colored), pretty)
  {
    ConcatLaid(head, FieldLines(keys, data, colored), pretty);
  }

  lemma ConcatLaid(head: seq<Part>, lines: seq<Part>, pretty: Option<string>)
    ensures Laid(head + (lines + JsonPart(pretty) + [Newline]), head, lines, pretty)
  {
    var tail := lines + JsonPart(pretty) + [Newline];
    var parts := head + tail;
    assert parts[..|head|] == head;
    assert parts[|head|..|head| + |lines|] == tail[..|lines|] == lines;
  }

  lemma AssembleLayout(head: seq<Part>, keys: seq<string>, data: map<string, string>, colored: bool, json: seq<Part>)
    requires forall k :: k in keys ==> k in data
    requires forall i :: 0 <= i < |head| ==> !head[i].Newline?
    requires forall i :: 0 <= i < |json| ==> !json[i].Newline?
    ensures var parts := Assemble(head, keys, data, colored, json);
      && |head| < |parts| && parts[..|head|] == head
      && parts[|parts| - 1] == Newline
      && (forall i :: 0 <= i < |parts| - 1 ==> parts[i] != Newline)
  {
    var lines := FieldLines(keys, data, colored);
    var rest := lines + json + [Newline];
    forall i | 0 <= i < |rest| - 1
      ensures rest[i] != Newline
    {
      if i < |lines| { assert rest[i] == lines[i]; } else { assert rest[i] == json[i - |lines|]; }
    }
    var parts := head + rest;
    assert parts[..|head|] == head;
  }

  lemma AssembleLines(head: seq<Part>, keys: seq<string>, data: map<string, string>, colored: bool, json: seq<Part>)
    requires forall k :: k in keys ==> k in data
    requires forall i :: 0 <= i < |head| ==> !head[i].FieldLine? && !head[i].ColorFieldLine?
    requires forall i :: 0 <= i < |json| ==> !json[i].FieldLine? && !json[i].ColorFieldLine?
    ensures var lines := LinesOf(Assemble(head, keys, data, colored, json));
      && KeysOf(lines) == keys
      && (forall j :: 0 <= j < |lines| ==> lines[j].1 == Truncate(data[keys[j]]))
  {
    var fl := FieldLines(keys, data, colored);
    LinesOfRecord(head, fl, json);
    LinesOfFieldLines(keys, data, colored);
    var lines := LinesOf(Assemble(head, keys, data, colored, json));
    assert KeysOf(lines) == keys;
  }

  /** Lines of a record come only from its field lines. */
  lemma LinesOfRecord(head: seq<Part>, fl: seq<Part>, json: seq<Part>)
    requires forall i :: 0 <= i < |head| ==> !head[i].FieldLine? && !head[i].ColorFieldLine?
    requires forall i :: 0 <= i < |json| ==> !json[i].FieldLine? && !json[i].ColorFieldLine?
    ensures LinesOf(head + (fl + json + [Newline])) == LinesOf(fl)
  {
    LinesOfNone(head);
    LinesOfNone(json);
    LinesOfNone([Newline]);
    LinesOfAppend(head, fl + json + [Newline]);
    LinesOfAppend(fl + json, [Newline]);
    LinesOfAppend(fl, json);
  }

  /** A record starts with its head and ends with its `Newline` part, the
      only one in the record. */
  lemma FormatLayout(cfg: Config, platform: Platform, input: Input, order: seq<string>,
                     fileInfo: string, elapsed: nat)
    requires Enumerates(order, input.data.Keys)
    ensures var parts := Format(cfg, platform, input, order, fileInfo, elapsed);
      var head := Head(cfg, platform, input, fileInfo, elapsed);
      && |head| < |parts| && parts[..|head|] == head
      && parts[|parts| - 1] == Newline
      && (forall i :: 0 <= i < |parts| - 1 ==> parts[i] != Newline)
  {
    var head := Head(cfg, platform, input, fileInfo, elapsed);
    var keys := KeyList(input.data, cfg.disableSorting, order);
    AssembleLayout(head, keys, input.data, IsColored(cfg, platform), JsonPart(input.prettyJson));
    assert Format(cfg, platform, input, order, fileInfo, elapsed)
        == Assemble(head, keys, input.data, IsColored(cfg, platform), JsonPart(input.prettyJson));
  }

  /** The keys of a sequence of key/value lines. */
  function KeysOf(lines: seq<(string, string)>): (keys: seq<string>)
    ensures |keys| == |lines| && forall j :: 0 <= j < |lines| ==> keys[j] == lines[j].0
  {
    seq(|lines|, j requires 0 <= j < |lines| => lines[j].0)
  }

  /** The field lines of a record list the keys in `KeyList` order (every
      field exactly once, sorted unless sorting is disabled), each with its
      value cut to 128 bytes. */
  lemma FormatFieldLines(cfg: Config, platform: Platform, input: Input, order: seq<string>,
                         fileInfo: string, elapsed: nat)
    requires Enumerates(order, input.data.Keys)
    ensures var lines := LinesOf(Format(cfg, platform, input, order, fileInfo, elapsed));
      && KeysOf(lines) == KeyList(input.data, cfg.disableSorting, order)
      && (forall j :: 0 <= j < |lines| ==> lines[j].0 in input.data && lines[j].1 == Truncate(input.data[lines[j].0]))
  {
    var keys := KeyList(input.data, cfg.disableSorting, order);
    var head := Head(cfg, platform, input, fileInfo, elapsed);
    AssembleLines(head, keys, input.data, IsColored(cfg, platform), JsonPart(input.prettyJson));
    assert Format(cfg, platform, input, order, fileInfo, elapsed)
        == Assemble(head, keys, input.data, IsColored(cfg, platform), JsonPart(input.prettyJson));
    var lines := LinesOf(Format(cfg, platform, input, order, fileInfo, elapsed));
    forall j | 0 <= j < |lines|
      ensures lines[j].0 in input.data && lines[j].1 == Truncate(input.data[lines[j].0])
    {
      assert lines[j].0 == KeysOf(lines)[j] == keys[j];
      assert keys[j] in keys;
    }
  }

  /** With sorting on, the record does not depend on the order in which
      the field map happens to be iterated. */
  lemma FormatIgnoresMapOrder(cfg: Config, platform: Platform, input: Input, o1: seq<string>, o2: seq<string>,
                              fileInfo: string, elapsed: nat)
    requires Enumerates(o1, input.data.Keys) && Enumerates(o2, input.data.Keys)
    requires !cfg.disableSorting
    ensures Format(cfg, platform, input, o1, fileInfo, elapsed)
         == Format(cfg, platform, input, o2, fileInfo, elapsed)
  {
    SortIgnoresOrder(o1, o2, input.data.Keys);
  }
}

=== FILE: tracer.dfy ===
/** The trace aggregator of tracer.go: a registry of chains keyed by an
    integer index, each a first-in first-out buffer of blocks with a colour
    taken from a four-colour palette, and the replay of a chain's blocks.
    The order in which Go ranges over the palette map is a parameter. */
module Tracer {
  import opened Wrappers
  import opened Strings
  import opened Sorting
  import TextFormat
  import Logging

  /** The four colours of the palette. */
  const Palette: set<nat> := {31, 32, 33, 34}

  /** One traced call: its fields (values rendered by `%+v`), the payload
      object as `json.Marshal` encodes it, the message `fmt.Sprint` makes of
      its arguments, and the colour of its chain when it was added. */
  datatype Block = Block(fields: map<string, string>, obj: Logging.Marshalled, args: string, color: nat)

  datatype Chain = Chain(blocks: seq<Block>, color: nat)

  /** The package's `chains` and `colors` maps. */
  datatype TraceState = TraceState(chains: map<int, Chain>, colors: map<nat, bool>)

  /** The state `init` leaves: no chains, every palette colour unused. */
  const Init := TraceState(map[], map[31 := false, 32 := false, 33 := false, 34 := false])

  /*
   * Claiming a colour
   */

  /** The `generateNewChain` loop over the colours in `order`: every unused
      colour is marked used and becomes the chain's colour in turn, so the
      chain keeps the last one met. */
  function Claim(colors: map<nat, bool>, order: seq<nat>, color: nat): (r: (map<nat, bool>, nat))
    requires Distinct(order) && forall k :: 0 <= k < |order| ==> order[k] in colors
    ensures r.0.Keys == colors.Keys
    ensures forall c :: c in colors ==> r.0[c] == (colors[c] || c in order)
    ensures (forall k :: 0 <= k < |order| ==> colors[order[k]]) ==> r.1 == color
    ensures forall k :: (0 <= k < |order| && !colors[order[k]] &&
      forall m :: k < m < |order| ==> colors[order[m]]) ==> r.1 == order[k]
    decreases |order|
  {
    if |order| == 0 then (colors, color)
    else
      var c := order[0];
      if !colors[c] then Claim(colors[c := true], order[1..], c)
      else Claim(colors, order[1..], color)
  }

  /** `generateNewChain`: a new empty chain and the palette after its loop.
      All colours end up used; the chain has the last unused colour in
      iteration order, or `TextFormat.NoColor` when none was left. */
  function GenerateNewChain(colors: map<nat, bool>, order: seq<nat>): (r: (map<nat, bool>, Chain))
    requires Enumerates(order, colors.Keys)
    ensures r.0.Keys == colors.Keys && forall c :: c in colors ==> r.0[c]
    ensures r.1.blocks == []
    ensures (forall c :: c in colors ==> colors[c]) ==> r.1.color == TextFormat.NoColor
    ensures (exists c :: c in colors && !colors[c]) ==> r.1.color in colors && !colors[r.1.color]
  {
    var (used, color) := Claim(colors, order, TextFormat.NoColor);
    if exists c :: c in colors && !colors[c] then
      var c :| c in colors && !colors[c];
      var k :| 0 <= k < |order| && order[k] == c;
      LastUnused(colors, order, k);
      (used, Chain([], color))
    else
      (used, Chain([], color))
  }

  /** If some colour in `order` is unused, a last unused one exists. */
  lemma LastUnused(colors: map<nat, bool>, order: seq<nat>, k: nat)
    requires Distinct(order) && forall m :: 0 <= m < |order| ==> order[m] in colors
    requires k < |order| && !colors[order[k]]
    ensures Claim(colors, order, TextFormat.NoColor).1 in colors && !colors[Claim(colors, order, TextFormat.NoColor).1]
    decreases |order| - k
  {
    if exists m :: k < m < |order| && !colors[order[m]] {
      var m :| k < m < |order| && !colors[order[m]];
      LastUnused(colors, order, m);
    }
  }

  /*
   * Tracing
   */

  /** `Trace`: creates chain `index` when it is missing, then appends a
      block with the chain's colour. Every other chain is unchanged, and the
      palette changes only when a chain is created. */
  function Trace(st: TraceState, index: int, fields: map<string, string>, obj: Logging.Marshalled, args: string,
                 order: seq<nat>): (r: TraceState)
    requires Enumerates(order, st.colors.Keys)
    ensures index in r.chains && r.chains.Keys == st.chains.Keys + {index}
    ensures index in st.chains ==> r.colors == st.colors && r.chains[index].color == st.chains[index].color
    ensures index in st.chains ==>
      r.chains[index].blocks == st.chains[index].blocks + [Block(fields, obj, args, st.chains[index].color)]
    ensures index !in st.chains ==>
      r.chains[index].blocks == [Block(fields, obj, args, r.chains[index].color)]
    ensures r.colors.Keys == st.colors.Keys
    ensures forall i :: i in st.chains && i != index ==> r.chains[i] == st.chains[i]
  {
    var (colors, chain) :=
      if index in st.chains then (st.colors, st.chains[index]) else GenerateNewChain(st.colors, order);
    var block := Block(fields, obj, args, chain.color);
    TraceState(st.chains[index := chain.(blocks := chain.blocks + [block])], colors)
  }

  /** `TraceDefault`: the same steps as `Trace`, written out for index 0. */
  function TraceDefault(st: TraceState, fields: map<string, string>, obj: Logging.Marshalled, args: string,
                        order: seq<nat>): (r: TraceState)
    requires Enumerates(order, st.colors.Keys)
    ensures 0 in r.chains && r.chains.Keys == st.chains.Keys + {0}
    ensures 0 in st.chains ==> r.colors == st.colors && r.chains[0].color == st.chains[0].color
    ensures 0 in st.chains ==>
      r.chains[0].blocks == st.chains[0].blocks + [Block(fields, obj, args, st.chains[0].color)]
    ensures 0 !in st.chains ==> r.chains[0].blocks == [Block(fields, obj, args, r.chains[0].color)]
    ensures forall i :: i in st.chains && i != 0 ==> r.chains[i] == st.chains[i]
  {
    var (colors, chain) :=
      if 0 in st.chains then (st.colors, st.chains[0]) else GenerateNewChain(st.colors, order);
    var block := Block(fields, obj, args, chain.color);
    TraceState(st.chains[0 := chain.(blocks := chain.blocks + [block])], colors)
  }

  /** `TraceDefault` is `Trace` on index 0. */
  lemma TraceDefaultIsTrace(st: TraceState, fields: map<string, string>, obj: Logging.Marshalled, args: string,
                            order: seq<nat>)
    requires Enumerates(order, st.colors.Keys)
    ensures TraceDefault(st, fields, obj, args, order) == Trace(st, 0, fields, obj, args, order)
  {
  }

  /** `TraceEnd`: the blocks of chain `index` front to back, to be printed;
      none for a missing chain. The registry is left as it was. */
  function TraceEnd(st: TraceState, index: int): (r: (TraceState, seq<Block>))
    ensures r.0 == st
    ensures index !in st.chains ==> r.1 == []
    ensures index in st.chains ==> r.1 == st.chains[index].blocks
  {
    (st, if index in st.chains then st.chains[index].blocks else [])
  }

  /** `TraceEndDefault`: `TraceEnd` on index 0. */
  function TraceEndDefault(st: TraceState): (r: (TraceState, seq<Block>))
    ensures r == TraceEnd(st, 0)
  {
    if 0 in st.chains then (st, st.chains[0].blocks) else (st, [])
  }

  /*
   * Invariants of the registry
   */

  /** Every block carries the colour of its chain. */
  predicate BlocksColored(st: TraceState)
  {
    forall i, k :: i in st.chains && 0 <= k < |st.chains[i].blocks| ==>
      st.chains[i].blocks[k].color == st.chains[i].color
  }

  /** The palette is untouched until the first chain exists and used up
      from then on. */
  predicate PaletteState(st: TraceState)
  {
    st.colors.Keys == Palette &&
    (|st.chains| == 0 ==> forall c :: c in st.colors ==> !st.colors[c]) &&
    (|st.chains| > 0 ==> forall c :: c in st.colors ==> st.colors[c])
  }

  /** Chains have a palette colour or `TextFormat.NoColor`, and at most one chain has
      a palette colour. */
  predicate ChainColorsOk(st: TraceState)
  {
    (forall i :: i in st.chains ==> st.chains[i].color == TextFormat.NoColor || st.chains[i].color in Palette) &&
    forall i, j :: i in st.chains && j in st.chains && i != j ==>
      st.chains[i].color == TextFormat.NoColor || st.chains[j].color == TextFormat.NoColor
  }

  predicate Good(st: TraceState)
  {
    BlocksColored(st) && PaletteState(st) && ChainColorsOk(st)
  }

  lemma InitGood()
    ensures Good(Init)
  {
    assert Init.colors.Keys == Palette;
  }

  lemma TraceKeepsBlocksColored(st: TraceState, index: int, fields: map<string, string>, obj: Logging.Marshalled,
                                args: string, order: seq<nat>)
    requires BlocksColored(st) && Enumerates(order, st.colors.Keys)
    ensures BlocksColored(Trace(st, index, fields, obj, args, order))
  {
    var r := Trace(st, index, fields, obj, args, order);
    forall i, k | i in r.chains && 0 <= k < |r.chains[i].blocks|
      ensures r.chains[i].blocks[k].color == r.chains[i].color
    {
      if i == index && index in st.chains && k < |st.chains[index].blocks| {
        assert r.chains[i].blocks[k] == st.chains[index].blocks[k];
      }
    }
  }

  lemma TraceKeepsPaletteState(st: TraceState, index: int, fields: map<string, string>, obj: Logging.Marshalled,
                               args: string, order: seq<nat>)
    requires PaletteState(st) && Enumerates(order, st.colors.Keys)
    ensures PaletteState(Trace(st, index, fields, obj, args, order))
  {
    var r := Trace(st, index, fields, obj, args, order);
    assert index in r.chains;
  }

  lemma TraceKeepsChainColors(st: TraceState, index: int, fields: map<string, string>, obj: Logging.Marshalled,
                              args: string, order: seq<nat>)
    requires PaletteState(st) && ChainColorsOk(st) && Enumerates(order, st.colors.Keys)
    ensures ChainColorsOk(Trace(st, index, fields, obj, args, order))
  {
    var r := Trace(st, index, fields, obj, args, order);
    if index !in st.chains {
      if |st.chains| > 0 {
        assert r.chains[index].color == TextFormat.NoColor;
      } else {
        assert st.chains.Keys == {};
        assert r.chains.Keys == {index};
      }
    }
  }

  /** `Trace` keeps the registry good. */
  lemma TracePreservesGood(st: TraceState, index: int, fields: map<string, string>, obj: Logging.Marshalled,
                           args: string, order: seq<nat>)
    requires Good(st) && Enumerates(order, st.colors.Keys)
    ensures Good(Trace(st, index, fields, obj, args, order))
  {
    TraceKeepsBlocksColored(st, index, fields, obj, args, order);
    TraceKeepsPaletteState(st, index, fields, obj, args, order);
    TraceKeepsChainColors(st, index, fields, obj, args, order);
  }

  /** The first chain gets a palette colour; every chain made after it gets
      `TextFormat.NoColor`, though three colours were never handed out. */
  lemma ChainColors(st: TraceState, index: int, fields: map<string, string>, obj: Logging.Marshalled,
                    args: string, order: seq<nat>)
    requires Good(st) && Enumerates(order, st.colors.Keys) && index !in st.chains
    ensures |st.chains| == 0 ==> Trace(st, index, fields, obj, args, order).chains[index].color in Palette
    ensures |st.chains| > 0 ==> Trace(st, index, fields, obj, args, order).chains[index].color == TextFormat.NoColor
  {
    if |st.chains| == 0 {
      assert st.chains.Keys == {};
      assert 31 in st.colors && !st.colors[31] by {
        assert st.colors.Keys == {31, 32, 33, 34};
        assert 31 in st.colors.Keys;
      }
    }
  }

  /*
   * First in, first out
   */

  /** The parts of a traced call a caller supplies. */
  datatype Item = Item(fields: map<string, string>, obj: Logging.Marshalled, args: string)

  function ItemOf(b: Block): Item
  {
    Item(b.fields, b.obj, b.args)
  }

  function Items(blocks: seq<Block>): (r: seq<Item>)
    ensures |r| == |blocks| && forall k :: 0 <= k < |blocks| ==> r[k] == ItemOf(blocks[k])
  {
    seq(|blocks|, k requires 0 <= k < |blocks| => ItemOf(blocks[k]))
  }

  /** Tracing several items on one index, one after another. */
  function TraceAll(st: TraceState, index: int, items: seq<Item>, order: seq<nat>): (r: TraceState)
    requires Enumerates(order, st.colors.Keys)
    ensures r.colors.Keys == st.colors.Keys
    decreases |items|
  {
    if |items| == 0 then st
    else
      var it := items[0];
      TraceAll(Trace(st, index, it.fields, it.obj, it.args, order), index, items[1..], order)
  }

  /** Replaying a chain after tracing items on it yields its earlier blocks
      followed by the items, in the order they were traced; other chains
      are unchanged. */
  lemma {:induction false} TraceAllAppends(st: TraceState, index: int, items: seq<Item>, order: seq<nat>)
    requires Enumerates(order, st.colors.Keys)
    ensures Items(TraceEnd(TraceAll(st, index, items, order), index).1) == Items(TraceEnd(st, index).1) + items
    ensures forall i :: i in st.chains && i != index ==>
      i in TraceAll(st, index, items, order).chains && TraceAll(st, index, items, order).chains[i] == st.chains[i]
    decreases |items|
  {
    if |items| > 0 {
      var it := items[0];
      var st1 := Trace(st, index, it.fields, it.obj, it.args, order);
      TraceAllAppends(st1, index, items[1..], order);
      assert Items(TraceEnd(st1, index).1) == Items(TraceEnd(st, index).1) + [it];
      assert items == [it] + items[1..];
    }
  }

  /** Blocks traced on chain 0 as A then B, with C on chain 1 in between,
      replay as exactly [A, B] on chain 0 and [C] on chain 1, and a second
      replay of chain 0 gives [A, B] again. */
  lemma InterleavedReplay(a: Item, b: Item, c: Item, order: seq<nat>)
    requires Enumerates(order, Init.colors.Keys)
    ensures var st := Trace(Trace(Trace(Init, 0, a.fields, a.obj, a.args, order),
                                  1, c.fields, c.obj, c.args, order), 0, b.fields, b.obj, b.args, order);
      Items(TraceEnd(st, 0).1) == [a, b] && Items(TraceEnd(st, 1).1) == [c] &&
      Items(TraceEnd(TraceEnd(st, 0).0, 0).1) == [a, b]
  {
    var s1 := Trace(Init, 0, a.fields, a.obj, a.args, order);
    var s2 := Trace(s1, 1, c.fields, c.obj, c.args, order);
    var s3 := Trace(s2, 0, b.fields, b.obj, b.args, order);
    assert Items(s3.chains[0].blocks) == [a, b];
    assert Items(s3.chains[1].blocks) == [c];
  }

  /*
   * Printing a block
   */

  /** The lines `printBlock` writes, each in the block's colour. */
  datatype Shown =
    | Header(color: nat, message: string)
    | FieldRow(color: nat, key: string, value: string)
    | Payload(color: nat, json: string)
    | Separator

  /** The width `%-44s` pads the message to. */
  const MessageWidth: nat := 44

  /** `printBlock`: the padded message, one row per field in the map's
      iteration order `order` with its value cut to 128 bytes plus "...",
      the payload's encoding and a rule. An object that cannot be encoded
      panics. */
  function PrintBlock(block: Block, order: seq<string>): (r: Result<seq<Shown>>)
    requires Enumerates(order, block.fields.Keys)
    ensures r.Err? <==> block.obj.MarshalError?
    ensures r.Err? ==> r.error == EncodePanic(block.obj.message)
    ensures r.Ok? ==> |r.value| == |order| + 3
    ensures r.Ok? ==> r.value[0] == Header(block.color, PadRight(block.args, MessageWidth))
    ensures r.Ok? ==> forall k :: 0 <= k < |order| ==>
      r.value[k + 1].FieldRow? && r.value[k + 1].key == order[k] && r.value[k + 1].color == block.color &&
      |r.value[k + 1].value| <= MaxValueLength + 3 &&
      (|block.fields[order[k]]| <= MaxValueLength ==> r.value[k + 1].value == block.fields[order[k]]) &&
      (|block.fields[order[k]]| > MaxValueLength ==>
        r.value[k + 1].value == block.fields[order[k]][..MaxValueLength] + "...")
    ensures r.Ok? ==> r.value[|order| + 1] == Payload(block.color, block.obj.json) && r.value[|order| + 2] == Separator
  {
    match block.obj
    case MarshalError(err) => Err(EncodePanic(err))
    case Encoded(json) =>
      var rows := seq(|order|, k requires 0 <= k < |order| =>
        FieldRow(block.color, order[k], Truncate(block.fields[order[k]])));
      Ok([Header(block.color, PadRight(block.args, MessageWidth))] + rows +
         [Payload(block.color, json), Separator])
  }
}

=== FILE: wrappers.dfy ===
/** Option and Result values used for the package's nil returns, error
    returns and run-time panics. */
module Wrappers {

  /** A value that may be absent (a nil pointer or nil slice in the source). */
  datatype Option<+T> = None | Some(value: T)

  /** Why an operation did not produce a value. */
  datatype Failure =
    | NotALevel(text: string)        // ParseLevel's "not a valid logrus Level" error
    | SlicePanic                     // a slice expression out of range
    | KeyNotString(position: nat)    // a failed `.(string)` type assertion
    | EncodePanic(message: string)   // `panic(err)` after a failed `json.Marshal`

  /** The value of an operation that returns an error or panics. */
  datatype Result<+T> = Ok(value: T) | Err(error: Failure)
}
